=== FILE: README.md ===
# Chat assistant core, modelled in Dafny

A model of the deterministic core of a chat assistant: a React frontend
talking to a Flask backend that analyses each message (intent, sentiment,
entities, keywords) and answers it from template lists.

Four source files are modelled, one Dafny module each:

- `Chat` (`chat.dfy`) models `ChatInterface.js`: the chat panel's state machine. The state is the message log, the input, the
  "AI is thinking" flag (`isTyping`), connectivity, the model flags and the
  error banner. Each handler is a pure function. Each awaited HTTP call is
  split at its suspension point: one function runs the synchronous part,
  and another takes the call's `Reply` and runs the code after the `await`.
  It also models the send-failure classifier, the send-enabled predicate and the placeholder.
  `WellFormed` is the log invariant every handler keeps. The log is never
  empty. A user message carries no analysis, no processing time and no error
  mark. An error message is an assistant message that starts with the apology.
- `Shell` (`shell.dfy`) models `App.js`: the health check that decides between the chat
  and the connection-error panel, the two header toggles, and the model
  footer.
- `Bubble` (`bubble.dfy`) models `MessageBubble.js`: relative-time bucketing, the
  sentiment and intent emoji tables, the analysis panel with its truncated
  entity and keyword chips, and the footer.
- `Responder` (`responder.dfy`) models `response_generator.py`: the reply
  decision tree, the sentiment and entity rewriting, and the history
  bookkeeping. `random.choice(xs)` is `Choose(xs, pick)` for a
  caller-supplied `pick`. `ChooseCovers` proves that every member of `xs` is
  some draw, so the model allows exactly the replies the source can give.
  `datetime.now()` is a `Clock` parameter.

Shared modules:

- `Payload` holds the JSON shapes. A missing key or a `null` is `None`.
- `Text` models the runtime string operations the code relies on:
  - ECMAScript `trim`, with its exact whitespace set;
  - Python's substring `in` and `lower`;
  - decimal rendering of integers;
  - JavaScript's UTF-16 `length`.
- `Wrappers` holds `Option`.

Behaviour of the code worth knowing when reading the model:

- Only status 500 counts as a server error. A 503 gets the generic advice;
  see `Chat.OtherServerStatusIsGeneric`.
- A failed connection check raises a banner in the chat panel.
- A failed model-status check keeps the old flags.
- The send handler does not check connectivity. Only the disabled button
  and input do; see `Chat.HandlerIgnoresConnectivity` and
  `Chat.EnterNeedsConnection`.
- Overlapping health checks are not merged: each settles on its own.
- A failed health check in the shell clears the health report. That hides
  the model footer. It does not reset any flags.

The model follows the code everywhere except at the three places listed
under "## Findings". There, each as-written behaviour has its own member,
and the members marked "as intended" in the table below use the corrected
behaviour:

- the `time_date` replies: `Responder.GenerateResponseAsWritten` and
  `Responder.HandleIntentAsWritten` as written, `Responder.GenerateResponse`
  and `Responder.HandleIntent` as intended;
- the two number slots: `Bubble.NumberSlotAsWritten` as written,
  `Bubble.NumberSlotOf`, `Bubble.RenderAnalysis` and `Bubble.FooterOf` as
  intended. `Bubble.NumberSlotFixOnlyAffectsZero` shows the two differ only
  on 0.

## Model

| member | source | states |
|---|---|---|
| `Text.TrimEmptyIffBlank` | frontend/src/components/ChatInterface.js:71 | `input.trim()` is empty exactly when every character is ECMAScript whitespace, so the guard rejects exactly the blank inputs |
| `Text.TrimStart` | frontend/src/components/ChatInterface.js:71 | trimming the front drops a blank prefix and leaves a suffix that does not start with whitespace |
| `Text.TrimEnd` | frontend/src/components/ChatInterface.js:71 | trimming the back drops a blank suffix and leaves a prefix that does not end with whitespace |
| `Text.Trim` | frontend/src/components/ChatInterface.js:71 | `s.trim()` is `s` with blank ends removed: it occurs in `s` with only whitespace before and after it, and neither starts nor ends with whitespace |
| `Text.Utf16Length` | frontend/src/components/ChatInterface.js:160-162 | JavaScript `length` counts one or two UTF-16 units per character, and exactly one per character iff there is no astral code point |
| `Text.Utf16LengthAppend` | frontend/src/components/ChatInterface.js:160-162 | the counted length of a concatenation is the sum of the lengths |
| `Text.ContainsIff` | backend/utils/response_generator.py:136 | Python's `p in s` holds iff `p` occurs at some index of `s` |
| `Text.Contains` | backend/utils/response_generator.py:136 | Python's `p in s`, scanning from the left; `Text.ContainsIff` is the statement about it |
| `Text.ContainsTransitive` | backend/utils/response_generator.py:131-136 | a string containing a pattern contains every substring of that pattern |
| `Text.Lower` | backend/utils/response_generator.py:135 | lower-casing keeps the length and maps each character on its own |
| `Text.NatToString` | frontend/src/components/MessageBubble.js:12-13 | an integer in a template literal renders as at least one digit; the numeral starts with 0 only when it is exactly "0" |
| `Text.ParseNatToString` | frontend/src/components/MessageBubble.js:12-13 | reading the rendered digits back gives the number, so the rendering loses nothing |
| `Text.NatToStringInjective` | frontend/src/components/MessageBubble.js:12-13 | distinct numbers render as distinct numerals |
| `Chat.Init` | frontend/src/components/ChatInterface.js:7-24 | the panel mounts with one welcome message (id 1) and an empty input; it is not typing, not connected, has all model flags off and no banner; this state satisfies the log invariant |
| `Chat.CheckConnection` | frontend/src/components/ChatInterface.js:39-48 | a reachable health endpoint connects and clears the banner; a failure disconnects and sets the fixed banner; nothing else changes |
| `Chat.CheckModelStatus` | frontend/src/components/ChatInterface.js:50-61 | a success copies the three flags; a failure leaves the whole state, old flags included, unchanged |
| `Chat.Retry` | frontend/src/components/ChatInterface.js:154-158 | after a retry the banner is clear and the panel is connected iff the health check succeeded; the model flags come from the status check, or stay; the log, the input and the pending flag are untouched; the log invariant is kept |
| `Chat.ChecksCommute` | frontend/src/components/ChatInterface.js:29-61 | the two checks on mount and retry touch disjoint fields, so the order in which they settle does not matter |
| `Chat.DismissError` | frontend/src/components/ChatInterface.js:226 | the ✕ button clears the banner and changes no other field |
| `Chat.CharacterCount` | frontend/src/components/ChatInterface.js:160-162 | the counter shows the input's length in UTF-16 units, which lies between the character count and twice it |
| `Chat.EditInput` | frontend/src/components/ChatInterface.js:264-269 | an edit is ignored while the input is disabled and cannot take the counter past 2000; otherwise it sets the input and nothing else |
| `Chat.SendEnabled` | frontend/src/components/ChatInterface.js:275 | the send button is enabled iff the input has a non-whitespace character, no reply is pending and the panel is connected |
| `Chat.InputDisabled` | frontend/src/components/ChatInterface.js:268 | the input is disabled while a reply is pending or the panel is disconnected; `Chat.PlaceholderExplainsDisabled` and `Chat.KeyPress` are the statements about it |
| `Chat.Placeholder` | frontend/src/components/ChatInterface.js:164-172 | disconnected is checked first, then thinking, then the default |
| `Chat.PlaceholderExplainsDisabled` | frontend/src/components/ChatInterface.js:164-172 | the default prompt shows iff the input (disabled at line 268) is enabled; "Connecting…" shows iff disconnected, and "AI is thinking…" iff connected and waiting |
| `Chat.StartSend` | frontend/src/components/ChatInterface.js:70-84 | the send is ignored iff the input is blank or a reply is pending; if accepted, exactly one user message with the raw untrimmed input and no analysis is appended, the input is cleared, the pending flag is set, the banner is cleared, and the raw input is posted |
| `Chat.Accepts` | frontend/src/components/ChatInterface.js:71 | the handler's guard passes iff the input has a non-whitespace character and no reply is pending; connectivity is not checked |
| `Chat.Classify` | frontend/src/components/ChatInterface.js:107-115 | a failure is a server error iff its status is exactly 500, a network error iff it is not and its code is `ECONNABORTED` or `NETWORK_ERROR`, and generic otherwise |
| `Chat.ErrorText` | frontend/src/components/ChatInterface.js:107-115 | every synthesized error reply is the fixed apology followed by its kind's advice: server, network or generic |
| `Chat.ErrorTextRoundTrip` | frontend/src/components/ChatInterface.js:107-115 | the three error texts are distinct, and the category can be read back from the text |
| `Chat.StatusWinsOverCode` | frontend/src/components/ChatInterface.js:109-111 | a 500 is a server error even when a network code is also present |
| `Chat.OtherServerStatusIsGeneric` | frontend/src/components/ChatInterface.js:109-114 | 502 and 503 get the generic advice, not the server one |
| `Chat.CompleteSend` | frontend/src/components/ChatInterface.js:86-130 | when the post settles, exactly one assistant message is appended and the pending flag drops. A success carries the reply text, analysis and processing time, is not an error, and leaves the banner alone. A failure carries the classified error text and the error mark, has no analysis, and sets the banner. The failure text is the apology followed by the server advice iff the status is 500, else the network advice iff the code is `ECONNABORTED` or `NETWORK_ERROR`, else the generic advice |
| `Chat.Send` | frontend/src/components/ChatInterface.js:70-131 | an uninterrupted send is a no-op when the guard fails; otherwise the log grows by exactly two, the user message then the assistant message; the pending flag ends false; the banner ends set iff the post failed |
| `Chat.KeyPress` | frontend/src/components/ChatInterface.js:133-138 | Enter without Shift sends, but only while the input that receives the key (line 268) is enabled; every other key, and any key on a disabled input, does nothing; the log invariant is kept |
| `Chat.EnterNeedsConnection` | frontend/src/components/ChatInterface.js:266-268 | Enter changes the state only when connected, not waiting and with a non-blank input; whenever the button is enabled, Enter does what the button does |
| `Chat.EnabledSendIsAccepted` | frontend/src/components/ChatInterface.js:275 | whenever the button is enabled, the handler's own guard at line 71 accepts |
| `Chat.HandlerIgnoresConnectivity` | frontend/src/components/ChatInterface.js:71 | the handler accepts in a disconnected state where the button is disabled, so connectivity is enforced only by the button and the input |
| `Chat.Clear` | frontend/src/components/ChatInterface.js:140-152 | the log becomes exactly the short welcome message with id 1, no analysis and no processing time, and the banner clears, whatever the prior log; the pending flag, the input and connectivity are unchanged |
| `Chat.ClearIdempotent` | frontend/src/components/ChatInterface.js:140-148 | clearing forgets the log and the banner: two states that agree on everything else clear to the same state, and clearing twice equals clearing once |
| `Chat.ClearDuringSend` | frontend/src/components/ChatInterface.js:140-148 | a clear while a reply is pending keeps further sends blocked, and the reply then lands right after the welcome without its user message |
| `Shell.Init` | frontend/src/App.js:8-12 | the shell starts loading, disconnected, with no health report, in dark mode and not minimized |
| `Shell.CheckBackendHealth` | frontend/src/App.js:22-34 | a success stores the report and connects; a failure disconnects and drops the report; either way loading ends and the toggles are untouched |
| `Shell.ToggleDarkMode` | frontend/src/App.js:36-39 | the theme flag flips and nothing else changes |
| `Shell.ToggleMinimize` | frontend/src/App.js:41-43 | the minimized flag flips and nothing else changes |
| `Shell.TogglesAreInvolutions` | frontend/src/App.js:36-43 | each toggle applied twice restores the state, and the two toggles commute |
| `Shell.Step` | frontend/src/App.js:22-43 | every event keeps "connected iff a health report is held", and none brings the loading screen back |
| `Shell.RunKeepsInvariants` | frontend/src/App.js:15-34 | along any run of events the shell stays consistent, and after the first settled health check it never shows the loading screen again |
| `Shell.ScreenOf` | frontend/src/App.js:45-176 | the loading screen shows iff loading; otherwise the minimized button, and otherwise the chat iff connected, or the error panel |
| `Shell.IndicatorOf` | frontend/src/App.js:190-198 | an indicator is `loaded` iff its flag is set |
| `Shell.FooterOf` | frontend/src/App.js:80-203 | the model strip is on the page iff the expanded window is shown (not loading, not minimized) and a health report is held, that is iff the chat or the error panel is on screen with a report; each indicator is `loaded` iff `models_loaded.<name>` is set |
| `Shell.ChatShownWithFooter` | frontend/src/App.js:151-199 | in a consistent state the chat never shows without the model strip, and a failed check removes both |
| `Bubble.ElapsedMinutes` | frontend/src/components/MessageBubble.js:9 | the elapsed minutes are the floor of the difference over 60000, negative differences included |
| `Bubble.AgeOf` | frontend/src/components/MessageBubble.js:9-14 | "just now" iff under a minute; whole minutes 1..59 iff under an hour; whole hours 1..23 iff under a day; the date otherwise |
| `Bubble.FormatTime` | frontend/src/components/MessageBubble.js:6-15 | under a minute reads "Just now"; under an hour, the whole minutes followed by "m ago"; under a day, the whole hours followed by "h ago"; otherwise the locale date. The number has no leading zero and reads back as the bucket's count |
| `Bubble.FormatTimeSeparatesBuckets` | frontend/src/components/MessageBubble.js:11-13 | two messages between a minute and a day old get the same label only if they fall in the same minute or hour bucket |
| `Bubble.SentimentEmoji` | frontend/src/components/MessageBubble.js:17-24 | the three polarities map to fixed faces, and the robot is shown iff the label is none of them |
| `Bubble.IntentEmoji` | frontend/src/components/MessageBubble.js:26-38 | each of the eight named intents gets its emoji from the table (👋 for both greeting and goodbye), and the speech balloon is shown iff the intent is none of them |
| `Bubble.IntentEmojiCollisions` | frontend/src/components/MessageBubble.js:26-38 | two distinct named intents share an emoji iff they are greeting and goodbye |
| `Bubble.NumberSlotAsWritten` | frontend/src/components/MessageBubble.js:89-93 | as written, a `{n && …}` slot renders a stray "0" iff the number is 0, and the span iff it is non-zero |
| `Bubble.ZeroRendersStrayDigit` | frontend/src/components/MessageBubble.js:89-93 | a zero confidence renders differently from an absent one |
| `Bubble.NumberSlotOf` | frontend/src/components/MessageBubble.js:89-93 | as intended, the slot shows the number iff it is present and non-zero, and never a stray digit |
| `Bubble.NumberSlotFixOnlyAffectsZero` | frontend/src/components/MessageBubble.js:89-93 | the intended slot differs from the written one exactly on 0 |
| `Bubble.ToneOf` | frontend/src/components/MessageBubble.js:79-85 | the pill is green iff the label is "positive", red iff "negative", grey otherwise |
| `Bubble.EmojiMatchesTone` | frontend/src/components/MessageBubble.js:17-24 | the emoji and the pill colour agree: 😊 iff green, 😔 iff red, 😐 or 🤖 iff grey |
| `Bubble.StatsLine` | frontend/src/components/MessageBubble.js:135-141 | three lines, words then chars then sentences, each with its fixed emoji and unit; each number has no leading zero and reads back as its count |
| `Bubble.EntityChips` | frontend/src/components/MessageBubble.js:97-114 | the section is omitted iff the entities are absent or empty; otherwise it holds the first min(3, n) entities in order, each as "text (label)" |
| `Bubble.KeywordChips` | frontend/src/components/MessageBubble.js:116-133 | the section is omitted iff the keywords are absent or empty; otherwise it holds the first min(4, n) words in order |
| `Bubble.ChipsIgnoreTail` | frontend/src/components/MessageBubble.js:101-120 | entities after the third and keywords after the fourth never change what is shown |
| `Bubble.RenderAnalysis` | frontend/src/components/MessageBubble.js:40-145 | as intended (see Findings): the panel exists iff the message has analysis and the details are open; a line or section exists for each field present, and none for absent fields; it carries the intent and sentiment emoji; the sentiment percentage shows iff the confidence is non-zero; the intent line shows the analysis's primary intent and confidence; the sentiment line shows its label and the pill colour `ToneOf` gives it; the stats section is `StatsLine` of the text stats |
| `Bubble.FooterOf` | frontend/src/components/MessageBubble.js:155-199 | as intended (see Findings): the details button shows iff analysis is present and allowed, with the hide/show label; ❌ shows iff the message is an error; the processing time shows iff present and non-zero; the time is `formatTime` of the message's age, and a shown processing time is the message's own |
| `Bubble.ClickDetails` | frontend/src/components/MessageBubble.js:171-173 | a click flips `showDetails` iff the footer shows the button, and otherwise changes nothing |
| `Bubble.PanelNeedsButton` | frontend/src/components/MessageBubble.js:171-192 | without `showAnalysis` the panel never opens, however often it is clicked; with the button, it is open exactly after an odd number of clicks |
| `Bubble.UserBubblesArePlain` | frontend/src/components/MessageBubble.js:167-197 | in a well-formed log, a user message's bubble shows no analysis, no button, no processing time and no error mark |
| `Responder.Choose` | backend/utils/response_generator.py:116 | a random choice is a member of the list |
| `Responder.ChooseCovers` | backend/utils/response_generator.py:116-124 | every member of the list is some draw |
| `Responder.FormatUsesTopic` | backend/utils/response_generator.py:168-169 | a formatted template with a `{topic}` field contains the topic; one without a field does not depend on it |
| `Responder.Format` | backend/utils/response_generator.py:168-169 | `template.format(topic=…)` on a parsed template; `Responder.FormatUsesTopic` is the statement about it |
| `Responder.AskingNameReduces` | backend/utils/response_generator.py:129-136 | the name check holds iff the lowered message contains "your name", "who are you" or "what are you called"; the other three patterns are subsumed |
| `Responder.IsAskingName` | backend/utils/response_generator.py:129-136 | `_is_asking_name`: the lowered message contains one of the six patterns; `Responder.AskingNameReduces` is the statement about it |
| `Responder.HandleQuestion` | backend/utils/response_generator.py:138-161 | with a wh-substring it checks time/date, then weather, then the name, then help/do. A message that has no wh-substring, or has one but matches none of the four checks, gets the question about the first keyword if there are keywords, or the fixed reply |
| `Responder.ContextualResponse` | backend/utils/response_generator.py:163-171 | without keywords the reply is fixed; with keywords it is some fallback template formatted with the first keyword's word |
| `Responder.ContextualResponseCovers` | backend/utils/response_generator.py:165-169 | with keywords, every fallback template formatted with the first keyword can come out |
| `Responder.FallbackTopicFields` | backend/utils/response_generator.py:58-63 | every fallback template but the third has a `{topic}` field |
| `Responder.ContextualResponseNamesTopic` | backend/utils/response_generator.py:163-169 | the contextual reply contains the first keyword, unless the draw is the third template, whose text ignores it |
| `Responder.IntentTemplates` | backend/utils/response_generator.py:15-55 | exactly the eight named intents have a reply list, each non-empty, and each intent gets its own list (time_date's built from the clock) |
| `Responder.HandleIntent` | backend/utils/response_generator.py:111-127 | as intended (see Findings): a name question wins over every intent; then "question" goes to the question handler; a known intent draws from its list; anything else gets the contextual reply. The `time_date` list uses the call's clock; see Findings |
| `Responder.HandleIntentCovers` | backend/utils/response_generator.py:111-127 | every name reply, and every template of a known non-question intent, can come out |
| `Responder.QuestionsAreDeterministic` | backend/utils/response_generator.py:111-151 | the name branch inside the question handler is dead, so a question's answer does not depend on the draw |
| `Responder.AddSentimentContext` | backend/utils/response_generator.py:173-180 | "negative" prepends the sympathy line, "positive" appends the glad-to-help line, any other label leaves the reply unchanged |
| `Responder.FirstOfKind` | backend/utils/response_generator.py:185-186 | the result is the first entity whose label is in the set, or none iff no entity has such a label |
| `Responder.AddEntityContext` | backend/utils/response_generator.py:182-193 | the first PERSON is mentioned if there is one; otherwise the first GPE or LOC; otherwise the reply is unchanged; the original reply is always a prefix |
| `Responder.Init` | backend/utils/response_generator.py:9-12 | a new generator has empty history, no user name and an empty context |
| `Responder.Truthy` | backend/utils/response_generator.py:84 | `if analysis_results:` holds iff the analysis is present and not `{}` |
| `Responder.GenerateResponse` | backend/utils/response_generator.py:73-105 | as intended (see Findings), with the `time_date` replies rendered at the call: every call appends exactly one history entry and changes nothing else; a falsy analysis (absent or `{}`) gives the fixed fallback; otherwise the intent reply is adjusted for sentiment and then for entities |
| `Responder.SentimentFraming` | backend/utils/response_generator.py:96-100 | a negative answer starts with the sympathy line; a positive answer has the glad-to-help line right after the base reply, before any entity mention |
| `Responder.IntentsOf` | backend/utils/response_generator.py:207-209 | a string is collected iff some entry has an analysis with an intent whose primary is that string; there are never more intents than entries |
| `Responder.HasIntent` | backend/utils/response_generator.py:208 | an entry counts iff its analysis is present and has an intent; `Responder.IntentsOf` is the statement about it |
| `Responder.IntentsOfAppend` | backend/utils/response_generator.py:207-209 | collecting intents distributes over concatenation, so the order follows the history |
| `Responder.LastFive` | backend/utils/response_generator.py:207 | `history[-5:]` is the suffix of length min(5, n) |
| `Responder.GetSummary` | backend/utils/response_generator.py:199-215 | empty history gives the fixed string; otherwise message count equals conversation length equals history length, and the recent intents are those collected from the last five entries, in history order: at most five, and a string is listed iff one of the last five entries carries it as its primary intent |
| `Responder.SummaryAfterResponse` | backend/utils/response_generator.py:199-215 | after an answer the count is one more, and an analysed intent becomes the newest recent intent; otherwise the recent intents come from the older entries only |
| `Responder.ClearHistory` | backend/utils/response_generator.py:217-221 | the history and the context are emptied, the summary becomes the fixed string, and the user name is kept |
| `Responder.SetUserName` | backend/utils/response_generator.py:223-226 | the user name becomes the given one; the history, the context and the construction clock are kept |
| `Responder.PersonalizedGreeting` | backend/utils/response_generator.py:228-232 | greets by name iff a non-empty name is set |
| `Responder.GreetingUsesName` | backend/utils/response_generator.py:223-232 | after setting a non-empty name the greeting contains it |
| `Responder.TimeDateRepliesAsWritten` | backend/utils/response_generator.py:37-40 | as written, the two `time_date` replies show the clock read by the constructor: the first contains its timestamp, the second its long rendering |
| `Responder.HandleIntentAsWritten` | backend/utils/response_generator.py:111-127 | as written: for any intent other than `time_date` it answers as the corrected routing does; a `time_date` answer that is not a name reply is one of the replies rendered at construction |
| `Responder.GenerateResponseAsWritten` | backend/utils/response_generator.py:73-105 | as written: it records the same history entry as the corrected pipeline and gives the same answer unless the analysed intent is `time_date`; with the generator built at the time of the call, the two coincide |
| `Responder.AsWrittenTimeDateAnswer` | backend/utils/response_generator.py:37-40 | as written, a neutral `time_date` message without entities is answered with one of the replies rendered at construction |
| `Responder.TimeDateReplyIsStale` | backend/utils/response_generator.py:37-40 | a generator built at 09:00 and asked at 17:30 answers with a reply that shows neither rendering of 17:30, both for the list entry and for the whole as-written `generate_response` |
| `Responder.TimeDateReplyShowsNow` | backend/utils/response_generator.py:145 | as intended (like the question path), a `time_date` reply contains the call's time |

## Findings

| source | as written | input that shows it | evidently intended | confidence | as-written member | corrected member |
|---|---|---|---|---|---|---|
| backend/utils/response_generator.py:37-40 | the `time_date` replies are f-strings in the constructor, so they are rendered once, with the construction time | a generator built at 09:00, then a `time_date` message at 17:30: "The current date and time is 2024-01-01 09:00:00." | the time of the call, as the question path renders it at line 145 | high; not executed | `Responder.GenerateResponseAsWritten`, `Responder.TimeDateReplyIsStale` | `Responder.GenerateResponse`, `Responder.TimeDateReplyShowsNow` |
| frontend/src/components/MessageBubble.js:89-93 | `{sentiment.confidence && <span>…}` evaluates to the number 0 when the confidence is 0, and React renders it as the text "0" | sentiment `{sentiment: "neutral", confidence: 0}`: a lone "0" after the label | nothing when the confidence is 0 | high; not executed | `Bubble.NumberSlotAsWritten`, `Bubble.ZeroRendersStrayDigit` | `Bubble.NumberSlotOf`, `Bubble.RenderAnalysis` |
| frontend/src/components/MessageBubble.js:167-169 | `{message.processingTime && <span>…}` renders a stray "0" for a processing time of 0 | a reply with `processing_time: 0`: a lone "0" in the footer | nothing when the time is 0 | high; not executed | `Bubble.NumberSlotAsWritten`, `Bubble.ZeroRendersStrayDigit` | `Bubble.NumberSlotOf`, `Bubble.FooterOf` |

## Left out

- HTTP calls are not modelled: axios, the Flask endpoints and the best-effort `POST /api/conversation/clear`. Each awaited call's result is a `Reply` input.
- Timers and async scheduling are not modelled: the 30-second `setInterval`, the 500 ms delay before posting, `useEffect` and the mount wiring. Interleavings are written as explicit compositions of handlers, as in `Chat.ClearDuringSend`.
- The chat panel's unmounting is not modelled. The shell renders the chat only while it is not minimized and is connected (`frontend/src/App.js`:80 and 151-155). Minimizing, or one failed 30-second health check, unmounts the panel. When it returns, it starts again from `Chat.Init`, and its log is lost. `Chat.Clear` is the only reset the model states.
- `Date.now()` ids, `new Date()` timestamps, `toLocaleDateString()` and `datetime.now()` are parameters.
- `localStorage`, scrolling, refs, logging, `console.error`, the typing indicator, and all styling, animation and layout are left out. The sentiment pill's colour is kept as `Tone`.
- `Math.round(confidence * 100)` is left out because it is float arithmetic. The intent line carries the raw confidence. Percentages are modelled only as shown or hidden.
- Reals stand in for JavaScript numbers. NaN and -0 are not modelled.
- The exception path of `generate_response` is left out. It would return the fixed apology. With typed inputs, none of the dictionary accesses can raise. A key that is present but `null` is not distinguished from an absent key.
- `Text.Lower`: lowers only ASCII `A`–`Z`. Python's `str.lower` lowers every cased Unicode letter. All the patterns compared are ASCII, but a non-ASCII capital in the message is kept as is.
- `Chat.EditInput`: an edit that would pass `maxLength` is dropped whole. A browser truncates a long paste instead.
- The bodies of the health and model-status responses are assumed to be objects with boolean flags. JavaScript truthiness of other values is not modelled.

=== FILE: bubble.dfy ===
/** One chat bubble (frontend/src/components/MessageBubble.js): the relative
    timestamp, the emoji tables, the collapsible analysis panel and the
    footer. Everything here is a pure function of the message and the
    bubble's one piece of local state, `showDetails`. */
module Bubble {
  import opened Wrappers
  import opened Text
  import opened Payload
  import opened Chat

  /* ---------------------------------------------------------------------
     Relative time
     --------------------------------------------------------------------- */

  const MinuteMs := 60000
  const HourMs := 3600000

  datatype Age = JustNow | MinutesAgo(minutes: nat) | HoursAgo(hours: nat) | OlderThanADay

  /** `Math.floor(diffMs / 60000)`. Dafny's `/` on `int` is Euclidean, which
      for a positive divisor is the floor, negative differences included. */
  function ElapsedMinutes(diffMs: int): (m: int)
    ensures m * MinuteMs <= diffMs < (m + 1) * MinuteMs
  {
    diffMs / MinuteMs
  }

  /** The bucket `formatTime` picks for a message `diffMs` milliseconds old
      (negative when the clock went backwards): under a minute, whole
      minutes 1..59, whole hours 1..23, or older than a day. */
  function AgeOf(diffMs: int): (a: Age)
    ensures a == JustNow <==> diffMs < MinuteMs
    ensures a.MinutesAgo? <==> MinuteMs <= diffMs < 60 * MinuteMs
    ensures a.MinutesAgo? ==>
      1 <= a.minutes <= 59 && a.minutes * MinuteMs <= diffMs < (a.minutes + 1) * MinuteMs
    ensures a.HoursAgo? <==> 60 * MinuteMs <= diffMs < 1440 * MinuteMs
    ensures a.HoursAgo? ==>
      1 <= a.hours <= 23 && a.hours * HourMs <= diffMs < (a.hours + 1) * HourMs
    ensures a == OlderThanADay <==> 1440 * MinuteMs <= diffMs
  {
    var m := ElapsedMinutes(diffMs);
    if m < 1 then JustNow
    else if m < 60 then MinutesAgo(m)
    else if m < 1440 then
      var h := m / 60;
      assert h * 60 <= m < (h + 1) * 60;
      assert h * HourMs == (h * 60) * MinuteMs;
      assert (h + 1) * HourMs == ((h + 1) * 60) * MinuteMs;
      HoursAgo(h)
    else OlderThanADay
  }

  /** `line` is `prefix`, then a decimal numeral that reads back as `n`,
      then `suffix`. */
  predicate ShowsCount(line: string, prefix: string, n: nat, suffix: string) {
    && |prefix| + |suffix| < |line|
    && line[..|prefix|] == prefix
    && line[|line| - |suffix|..] == suffix
    && AllDigits(line[|prefix|..|line| - |suffix|])
    && (line[|prefix|] == '0' ==> |prefix| + 1 + |suffix| == |line|)
    && ParseNat(line[|prefix|..|line| - |suffix|]) == n
  }

  lemma ShowsCountOf(prefix: string, n: nat, suffix: string)
    ensures ShowsCount(prefix + NatToString(n) + suffix, prefix, n, suffix)
  {
    var digits := NatToString(n);
    var line := prefix + digits + suffix;
    assert line[..|prefix|] == prefix;
    assert line[|line| - |suffix|..] == suffix;
    assert line[|prefix|..|line| - |suffix|] == digits;
    ParseNatToString(n);
  }

  /** `formatTime`; `localeDate` stands for `toLocaleDateString()`. Each
      label names its bucket, and the number in it reads back as the bucket's
      count. */
  function FormatTime(diffMs: int, localeDate: string): (r: string)
    ensures AgeOf(diffMs) == JustNow ==> r == "Just now"
    ensures AgeOf(diffMs).MinutesAgo? ==> ShowsCount(r, "", AgeOf(diffMs).minutes, "m ago")
    ensures AgeOf(diffMs).HoursAgo? ==> ShowsCount(r, "", AgeOf(diffMs).hours, "h ago")
    ensures AgeOf(diffMs) == OlderThanADay ==> r == localeDate
  {
    match AgeOf(diffMs)
    case JustNow => "Just now"
    case MinutesAgo(m) => ShowsCountOf("", m, "m ago"); NatToString(m) + "m ago"
    case HoursAgo(h) => ShowsCountOf("", h, "h ago"); NatToString(h) + "h ago"
    case OlderThanADay => localeDate
  }

  /** The label loses no information within a bucket: two messages under an
      hour old get the same label only if they are the same number of whole
      minutes old, and likewise for hours under a day. */
  lemma FormatTimeSeparatesBuckets(d1: int, d2: int, date: string)
    requires FormatTime(d1, date) == FormatTime(d2, date)
    requires MinuteMs <= d1 < 1440 * MinuteMs && MinuteMs <= d2 < 1440 * MinuteMs
    ensures AgeOf(d1) == AgeOf(d2)
  {
    var a1, a2 := AgeOf(d1), AgeOf(d2);
    var t := FormatTime(d1, date);
    var n1 := match a1 case MinutesAgo(m) => m case HoursAgo(h) => h case _ => 0;
    var n2 := match a2 case MinutesAgo(m) => m case HoursAgo(h) => h case _ => 0;
    var s1, s2 := NatToString(n1), NatToString(n2);
    assert t == s1 + (if a1.MinutesAgo? then "m ago" else "h ago");
    assert t == s2 + (if a2.MinutesAgo? then "m ago" else "h ago");
    // The unit letter sits just before " ago" and the digits before it.
    assert t[|t| - 5] == (if a1.MinutesAgo? then 'm' else 'h');
    assert t[|t| - 5] == (if a2.MinutesAgo? then 'm' else 'h');
    assert |s1| == |s2|;
    assert s1 == t[..|s1|] == s2;
    NatToStringInjective(n1, n2);
  }

  /* ---------------------------------------------------------------------
     Emoji tables
     --------------------------------------------------------------------- */

  const Sentiments: set<string> := {"positive", "negative", "neutral"}

  /** `getSentimentEmoji`: three fixed faces, and the robot for anything
      else. */
  function SentimentEmoji(polarity: string): (e: string)
    ensures polarity == "positive" ==> e == "😊"
    ensures polarity == "negative" ==> e == "😔"
    ensures polarity == "neutral" ==> e == "😐"
    ensures e == "🤖" <==> polarity !in Sentiments
  {
    if polarity == "positive" then "😊"
    else if polarity == "negative" then "😔"
    else if polarity == "neutral" then "😐"
    else "🤖"
  }

  /** `getIntentEmoji`: eight named intents, and the speech balloon for
      anything else. */
  function IntentEmoji(intent: string): (e: string)
    ensures intent == "greeting" || intent == "goodbye" ==> e == "👋"
    ensures intent == "question" ==> e == "❓"
    ensures intent == "request_help" ==> e == "🆘"
    ensures intent == "weather" ==> e == "🌤️"
    ensures intent == "time_date" ==> e == "⏰"
    ensures intent == "compliment" ==> e == "👍"
    ensures intent == "complaint" ==> e == "😞"
    ensures e == "💬" <==> intent !in IntentNames
  {
    if intent == "greeting" then "👋"
    else if intent == "question" then "❓"
    else if intent == "request_help" then "🆘"
    else if intent == "weather" then "🌤️"
    else if intent == "time_date" then "⏰"
    else if intent == "goodbye" then "👋"
    else if intent == "compliment" then "👍"
    else if intent == "complaint" then "😞"
    else "💬"
  }

  /** The intent table is injective except that greeting and goodbye share
      the waving hand. */
  lemma IntentEmojiCollisions(a: string, b: string)
    requires a in IntentNames && b in IntentNames && a != b
    ensures IntentEmoji(a) == IntentEmoji(b) <==> {a, b} == {"greeting", "goodbye"}
  {
    if {a, b} == {"greeting", "goodbye"} {
      assert a == "greeting" || a == "goodbye";
      assert b == "greeting" || b == "goodbye";
    }
  }

  /* ---------------------------------------------------------------------
     The analysis panel
     --------------------------------------------------------------------- */

  /** What a JSX slot `{value && <span>…</span>}` on a number shows. */
  datatype NumberSlot = Empty | StrayZero | Shown(value: real)

  /** The slot as the source writes it: JavaScript's `&&` yields the falsy
      number itself, and React renders the number 0 as the text "0". */
  function NumberSlotAsWritten(v: Option<real>): (r: NumberSlot)
    ensures r == StrayZero <==> v == Some(0.0)
    ensures r.Shown? <==> v.Some? && v.value != 0.0
  {
    match v
    case None => Empty
    case Some(x) => if x == 0.0 then StrayZero else Shown(x)
  }

  /** A confidence or processing time of exactly zero renders a lone "0". */
  lemma ZeroRendersStrayDigit()
    ensures NumberSlotAsWritten(Some(0.0)) == StrayZero
    ensures NumberSlotAsWritten(Some(0.0)) != NumberSlotAsWritten(None)
  {
  }

  /** The slot as evidently intended: shown for a non-zero number, and
      nothing otherwise. */
  function NumberSlotOf(v: Option<real>): (r: NumberSlot)
    ensures r != StrayZero
    ensures r.Shown? <==> v.Some? && v.value != 0.0
    ensures r.Shown? ==> r.value == v.value
  {
    if v.Some? && v.value != 0.0 then Shown(v.value) else Empty
  }

  /** The intended slot differs from the written one exactly on zero. */
  lemma NumberSlotFixOnlyAffectsZero(v: Option<real>)
    ensures NumberSlotOf(v) != NumberSlotAsWritten(v) <==> v == Some(0.0)
  {
  }

  /** The colour of the sentiment pill. */
  datatype Tone = Green | Red | Grey

  datatype IntentLine = IntentLine(emoji: string, primary: string, confidence: real)
  datatype SentimentLine = SentimentLine(emoji: string, polarity: string, tone: Tone, percent: NumberSlot)

  datatype Panel = Panel(
    intent: Option<IntentLine>,
    sentiment: Option<SentimentLine>,
    entities: Option<seq<string>>,
    keywords: Option<seq<string>>,
    stats: Option<seq<string>>)

  function Min(a: int, b: int): int {
    if a <= b then a else b
  }

  const MaxEntityChips := 3
  const MaxKeywordChips := 4

  function EntityChip(e: Entity): string {
    e.text + " (" + e.kind + ")"
  }

  /** The entity section: omitted when absent or empty, otherwise the first
      three entities, in order, as "text (label)". */
  function EntityChips(es: Option<seq<Entity>>): (r: Option<seq<string>>)
    ensures r.None? <==> es.None? || |es.value| == 0
    ensures r.Some? ==> |r.value| == Min(MaxEntityChips, |es.value|)
    ensures r.Some? ==> forall i :: 0 <= i < |r.value| ==> r.value[i] == EntityChip(es.value[i])
  {
    match es
    case None => None
    case Some(xs) =>
      if |xs| == 0 then None
      else
        var n := Min(MaxEntityChips, |xs|);
        Some(seq(n, i requires 0 <= i < n => EntityChip(xs[i])))
  }

  /** The keyword section: omitted when absent or empty, otherwise the first
      four words, in order. */
  function KeywordChips(ks: Option<seq<Keyword>>): (r: Option<seq<string>>)
    ensures r.None? <==> ks.None? || |ks.value| == 0
    ensures r.Some? ==> |r.value| == Min(MaxKeywordChips, |ks.value|)
    ensures r.Some? ==> forall i :: 0 <= i < |r.value| ==> r.value[i] == ks.value[i].word
  {
    match ks
    case None => None
    case Some(xs) =>
      if |xs| == 0 then None
      else
        var n := Min(MaxKeywordChips, |xs|);
        Some(seq(n, i requires 0 <= i < n => xs[i].word))
  }

  /** Truncation means only the head of each list matters: appending more
      entities after the third, or keywords after the fourth, changes
      nothing on screen. */
  lemma ChipsIgnoreTail(es: seq<Entity>, moreEs: seq<Entity>, ks: seq<Keyword>, moreKs: seq<Keyword>)
    requires |es| >= MaxEntityChips && |ks| >= MaxKeywordChips
    ensures EntityChips(Some(es + moreEs)) == EntityChips(Some(es))
    ensures KeywordChips(Some(ks + moreKs)) == KeywordChips(Some(ks))
  {
    var a, b := EntityChips(Some(es + moreEs)).value, EntityChips(Some(es)).value;
    assert forall i :: 0 <= i < |a| ==> a[i] == b[i];
    assert a == b;
    var c, d := KeywordChips(Some(ks + moreKs)).value, KeywordChips(Some(ks)).value;
    assert forall i :: 0 <= i < |c| ==> c[i] == d[i];
    assert c == d;
  }

  /** The three text statistics, in order, each readable back as its
      count. */
  function StatsLine(t: TextStats): (r: seq<string>)
    ensures |r| == 3
    ensures ShowsCount(r[0], "📊 ", t.wordCount, " words")
    ensures ShowsCount(r[1], "📝 ", t.characterCount, " chars")
    ensures ShowsCount(r[2], "📄 ", t.sentenceCount, " sentences")
  {
    ShowsCountOf("📊 ", t.wordCount, " words");
    ShowsCountOf("📝 ", t.characterCount, " chars");
    ShowsCountOf("📄 ", t.sentenceCount, " sentences");
    [ "📊 " + NatToString(t.wordCount) + " words",
      "📝 " + NatToString(t.characterCount) + " chars",
      "📄 " + NatToString(t.sentenceCount) + " sentences" ]
  }

  /** The pill's colour: green for positive, red for negative, grey for
      any other label. */
  function ToneOf(polarity: string): (t: Tone)
    ensures t == Green <==> polarity == "positive"
    ensures t == Red <==> polarity == "negative"
  {
    if polarity == "positive" then Green else if polarity == "negative" then Red else Grey
  }

  /** The emoji and the pill agree: the happy face iff green, the sad face
      iff red, and any other emoji on a grey pill. */
  lemma EmojiMatchesTone(polarity: string)
    ensures SentimentEmoji(polarity) == "😊" <==> ToneOf(polarity) == Green
    ensures SentimentEmoji(polarity) == "😔" <==> ToneOf(polarity) == Red
    ensures SentimentEmoji(polarity) in {"😐", "🤖"} <==> ToneOf(polarity) == Grey
  {
  }

  /** `renderAnalysis`: nothing unless the message has an analysis and the
      details are open; then one line or section per field present, and
      none for a field that is absent. The intent percentage is always
      shown; the sentiment percentage only for a non-zero confidence. */
  function RenderAnalysis(analysis: Option<Analysis>, showDetails: bool): (p: Option<Panel>)
    ensures p.Some? <==> analysis.Some? && showDetails
    ensures p.Some? ==>
      var a := analysis.value;
      && (p.value.intent.Some? <==> a.intent.Some?)
      && (p.value.sentiment.Some? <==> a.sentiment.Some?)
      && (p.value.stats.Some? <==> a.textStats.Some?)
      && p.value.entities == EntityChips(a.entities)
      && p.value.keywords == KeywordChips(a.keywords)
    ensures p.Some? && p.value.intent.Some? ==>
      var line := p.value.intent.value;
      var i := analysis.value.intent.value;
      && line.emoji == IntentEmoji(i.primary)
      && line.primary == i.primary
      && line.confidence == i.confidence
    ensures p.Some? && analysis.value.textStats.Some? ==>
      p.value.stats == Some(StatsLine(analysis.value.textStats.value))
    ensures p.Some? && p.value.sentiment.Some? ==>
      var line := p.value.sentiment.value;
      var sent := analysis.value.sentiment.value;
      && line.emoji == SentimentEmoji(sent.polarity)
      && line.polarity == sent.polarity
      && line.tone == ToneOf(sent.polarity)
      && (line.percent.Shown? <==> sent.confidence.Some? && sent.confidence.value != 0.0)
      && line.percent != StrayZero
  {
    if analysis.None? || !showDetails then None
    else
      var a := analysis.value;
      var intent := match a.intent
        case None => None
        case Some(i) => Some(IntentLine(IntentEmoji(i.primary), i.primary, i.confidence));
      var sentiment := match a.sentiment
        case None => None
        case Some(s) => Some(SentimentLine(SentimentEmoji(s.polarity), s.polarity, ToneOf(s.polarity), NumberSlotOf(s.confidence)));
      var stats := match a.textStats
        case None => None
        case Some(t) => Some(StatsLine(t));
      Some(Panel(intent, sentiment, EntityChips(a.entities), KeywordChips(a.keywords), stats))
  }

  /* ---------------------------------------------------------------------
     The footer and the details toggle
     --------------------------------------------------------------------- */

  datatype Footer = Footer(time: string, processing: NumberSlot, toggle: Option<string>, errorMark: bool)

  /** The footer row: the relative time, the processing time when non-zero,
      the details button when the message has an analysis and the parent
      allows it, and the ❌ mark on error messages. */
  function FooterOf(m: Message, diffMs: int, localeDate: string, showAnalysis: bool, showDetails: bool): (f: Footer)
    ensures f.toggle.Some? <==> m.analysis.Some? && showAnalysis
    ensures f.toggle.Some? ==> f.toggle.value == (if showDetails then "🔼 Hide" else "🔽 Analysis")
    ensures f.errorMark <==> m.isError
    ensures f.time == FormatTime(diffMs, localeDate)
    ensures f.processing.Shown? <==> m.processingTime.Some? && m.processingTime.value != 0.0
    ensures f.processing.Shown? ==> f.processing.value == m.processingTime.value
    ensures f.processing != StrayZero
  {
    Footer(
      FormatTime(diffMs, localeDate),
      NumberSlotOf(m.processingTime),
      if m.analysis.Some? && showAnalysis then Some(if showDetails then "🔼 Hide" else "🔽 Analysis") else None,
      m.isError)
  }

  /** A click on the details button; without the button there is nothing to
      click. */
  function ClickDetails(m: Message, showAnalysis: bool, showDetails: bool): (r: bool)
    ensures FooterOf(m, 0, "", showAnalysis, showDetails).toggle.Some? ==> r == !showDetails
    ensures FooterOf(m, 0, "", showAnalysis, showDetails).toggle.None? ==> r == showDetails
  {
    if m.analysis.Some? && showAnalysis then !showDetails else showDetails
  }

  /** `showDetails` after `n` clicks from its initial `false`. */
  function DetailsAfter(m: Message, showAnalysis: bool, n: nat): bool {
    if n == 0 then false else ClickDetails(m, showAnalysis, DetailsAfter(m, showAnalysis, n - 1))
  }

  /** The panel opens only through the button: a bubble rendered without
      `showAnalysis` (the component's default) never shows its analysis,
      however often it is clicked, and with the button the panel is open
      exactly after an odd number of clicks. */
  lemma {:induction false} PanelNeedsButton(m: Message, showAnalysis: bool, n: nat)
    ensures !showAnalysis ==> RenderAnalysis(m.analysis, DetailsAfter(m, showAnalysis, n)).None?
    ensures m.analysis.Some? && showAnalysis ==>
      (RenderAnalysis(m.analysis, DetailsAfter(m, showAnalysis, n)).Some? <==> n % 2 == 1)
  {
    if n > 0 {
      PanelNeedsButton(m, showAnalysis, n - 1);
    }
  }

  /** In a well-formed chat log a user's bubble never shows analysis, a
      details button, a processing time or the error mark. */
  lemma UserBubblesArePlain(s: ChatState, i: int, diffMs: int, date: string, showDetails: bool)
    requires WellFormed(s) && 0 <= i < |s.messages| && s.messages[i].sender == User
    ensures RenderAnalysis(s.messages[i].analysis, showDetails).None?
    ensures var f := FooterOf(s.messages[i], diffMs, date, true, showDetails);
            f.toggle.None? && f.processing == Empty && !f.errorMark
  {
  }
}

=== FILE: chat.dfy ===
/** The chat panel's state machine (frontend/src/components/ChatInterface.js):
    the message log, the input box, the "AI is thinking" flag, connectivity,
    the model-readiness flags and the error banner, with one pure function
    per event handler. Every awaited HTTP call is split at its suspension
    point: the handler's synchronous part is one function, and the code that
    runs when the call settles is another that takes the call's `Reply`. */
module Chat {
  import opened Wrappers
  import opened Text
  import opened Payload

  datatype Sender = User | Assistant

  /** One bubble of the log. `isError` is `undefined` (false) except on the
      synthesized failure reply. Ids and timestamps come from `Date.now()`
      and `new Date()` and are passed in. */
  datatype Message = Message(
    id: int,
    text: string,
    sender: Sender,
    timestamp: int,
    analysis: Option<Analysis>,
    processingTime: Option<real>,
    isError: bool)

  datatype ChatState = ChatState(
    messages: seq<Message>,
    input: string,
    isTyping: bool,
    isConnected: bool,
    modelStatus: ModelFlags,
    error: Option<string>)

  const WelcomeId := 1
  const WelcomeText := "🚀 Hello! I'm Claude, your AI assistant powered by advanced NLP models. I can help you with questions, text analysis, and much more. How can I assist you today?"
  const ClearedWelcomeText := "🚀 Hello! I'm Claude, your AI assistant. How can I help you today?"
  const ConnectBanner := "Unable to connect to AI backend. Please check if the server is running."
  const SendFailedBanner := "Message failed to send. Please try again."
  const Apology := "I apologize, but I'm having trouble processing your message right now. "
  const ServerSuffix := "There seems to be a server issue. Please try again in a moment."
  const NetworkSuffix := "Please check your internet connection and try again."
  const GenericSuffix := "Please try again or rephrase your question."
  const MaxInputLength := 2000

  /** What a message may carry: a user message never has analysis, a
      processing time or the error mark, and an error message is an
      assistant message without analysis whose text starts with the apology. */
  predicate MessageOk(m: Message) {
    && (m.sender == User ==> m.analysis.None? && m.processingTime.None? && !m.isError)
    && (m.isError ==>
          && m.sender == Assistant
          && m.analysis.None?
          && m.processingTime.None?
          && |Apology| <= |m.text|
          && m.text[..|Apology|] == Apology)
  }

  /** A log is ok when it is not empty and every message is ok. */
  predicate LogOk(ms: seq<Message>) {
    |ms| >= 1 && forall i :: 0 <= i < |ms| ==> MessageOk(ms[i])
  }

  /** What the state's log may hold. */
  predicate WellFormed(s: ChatState) {
    LogOk(s.messages)
  }

  /** Appending an ok message keeps an ok log ok. */
  lemma AppendKeepsLogOk(ms: seq<Message>, m: Message)
    requires MessageOk(m)
    ensures LogOk(ms) ==> LogOk(ms + [m])
  {
  }

  function AssistantNote(id: int, text: string, now: int): Message {
    Message(id, text, Assistant, now, None, None, false)
  }

  /** The state the component mounts with. */
  function Init(now: int): (s: ChatState)
    ensures WellFormed(s)
    ensures s.messages == [AssistantNote(WelcomeId, WelcomeText, now)]
    ensures s.input == [] && !s.isTyping && !s.isConnected
    ensures s.modelStatus == NoModels && s.error.None?
  {
    ChatState([AssistantNote(WelcomeId, WelcomeText, now)], "", false, false, NoModels, None)
  }

  /* ---------------------------------------------------------------------
     Health and model status
     --------------------------------------------------------------------- */

  /** `checkConnection` once `GET /api/health` has settled: only the
      connectivity flag and the banner change. */
  function CheckConnection(s: ChatState, health: Reply<Health>): (r: ChatState)
    ensures r.isConnected <==> health.Ok?
    ensures health.Ok? ==> r.error.None?
    ensures health.Failed? ==> r.error == Some(ConnectBanner)
    ensures r == s.(isConnected := r.isConnected, error := r.error)
    ensures WellFormed(s) ==> WellFormed(r)
  {
    match health
    case Ok(_) => s.(isConnected := true, error := None)
    case Failed(_) => s.(isConnected := false, error := Some(ConnectBanner))
  }

  /** `checkModelStatus` once `GET /api/models/status` has settled: a success
      copies the three flags, a failure is only logged and leaves every field,
      the old flags included, as it was. */
  function CheckModelStatus(s: ChatState, status: Reply<ModelFlags>): (r: ChatState)
    ensures status.Ok? ==> r == s.(modelStatus := status.data)
    ensures status.Failed? ==> r == s
    ensures WellFormed(s) ==> WellFormed(r)
  {
    match status
    case Ok(flags) => s.(modelStatus := flags)
    case Failed(_) => s
  }

  /** `handleRetryConnection`: clear the banner, then both checks. The banner
      afterwards is decided by the health check alone. */
  function Retry(s: ChatState, health: Reply<Health>, status: Reply<ModelFlags>): (r: ChatState)
    ensures r.error.None? <==> health.Ok?
    ensures r.isConnected <==> health.Ok?
    ensures r.modelStatus == (if status.Ok? then status.data else s.modelStatus)
    ensures r.messages == s.messages && r.input == s.input && r.isTyping == s.isTyping
    ensures WellFormed(s) ==> WellFormed(r)
  {
    CheckModelStatus(CheckConnection(s.(error := None), health), status)
  }

  /** The two checks touch disjoint fields, so whichever settles first the
      result is the same. */
  lemma ChecksCommute(s: ChatState, health: Reply<Health>, status: Reply<ModelFlags>)
    ensures CheckModelStatus(CheckConnection(s, health), status)
         == CheckConnection(CheckModelStatus(s, status), health)
  {
  }

  /** The ✕ button on the banner. */
  function DismissError(s: ChatState): (r: ChatState)
    ensures r.error.None? && r == s.(error := r.error)
    ensures WellFormed(s) ==> WellFormed(r)
  {
    s.(error := None)
  }

  /* ---------------------------------------------------------------------
     The input box
     --------------------------------------------------------------------- */

  /** The input is `disabled` while waiting for a reply or disconnected. */
  predicate InputDisabled(s: ChatState) {
    s.isTyping || !s.isConnected
  }

  /** The characters-used counter: JavaScript's `inputMessage.length`, which
      counts UTF-16 code units, so a character outside the Basic Multilingual
      Plane counts twice. */
  function CharacterCount(s: ChatState): (n: nat)
    ensures n == Utf16Length(s.input)
    ensures |s.input| <= n <= 2 * |s.input|
    ensures n == |s.input| <==> forall i :: 0 <= i < |s.input| ==> s.input[i] as int <= 0xFFFF
  {
    Utf16Length(s.input)
  }

  /** An `onChange` of the input. The browser delivers none while the input
      is disabled, and none that would take it past `maxLength` code units. */
  function EditInput(s: ChatState, text: string): (r: ChatState)
    ensures InputDisabled(s) ==> r == s
    ensures !InputDisabled(s) && Utf16Length(text) <= MaxInputLength ==> r.input == text
    ensures r == s.(input := r.input)
    ensures CharacterCount(s) <= MaxInputLength ==> CharacterCount(r) <= MaxInputLength
    ensures WellFormed(s) ==> WellFormed(r)
  {
    if InputDisabled(s) || Utf16Length(text) > MaxInputLength then s else s.(input := text)
  }

  /** The send button is enabled iff the input has a non-whitespace
      character, no reply is pending, and the backend is reachable. */
  function SendEnabled(s: ChatState): (b: bool)
    ensures b <==> !Blank(s.input) && !s.isTyping && s.isConnected
  {
    TrimEmptyIffBlank(s.input);
    Trim(s.input) != [] && !s.isTyping && s.isConnected
  }

  /** The input's placeholder: disconnected wins over waiting, which wins
      over the default. */
  function Placeholder(s: ChatState): (p: string)
    ensures !s.isConnected ==> p == "Connecting to AI assistant..."
    ensures s.isConnected && s.isTyping ==> p == "AI is thinking..."
    ensures s.isConnected && !s.isTyping ==> p == "Type your message..."
  {
    if !s.isConnected then "Connecting to AI assistant..."
    else if s.isTyping then "AI is thinking..."
    else "Type your message..."
  }

  /** The default prompt shows exactly when the input is enabled; each of
      the other two names the reason it is disabled. */
  lemma PlaceholderExplainsDisabled(s: ChatState)
    ensures Placeholder(s) == "Type your message..." <==> !InputDisabled(s)
    ensures Placeholder(s) == "Connecting to AI assistant..." <==> !s.isConnected
    ensures Placeholder(s) == "AI is thinking..." <==> s.isConnected && s.isTyping
  {
  }

  /* ---------------------------------------------------------------------
     Sending
     --------------------------------------------------------------------- */

  /** The handler's own guard: it checks the trimmed input and the pending
      flag, but not connectivity. It passes exactly when the input has a
      non-whitespace character and no reply is pending. */
  function Accepts(s: ChatState): (b: bool)
    ensures b <==> !Blank(s.input) && !s.isTyping
  {
    TrimEmptyIffBlank(s.input);
    Trim(s.input) != [] && !s.isTyping
  }

  datatype SendStart = Ignored | Started(state: ChatState, request: string)

  /** The synchronous part of `handleSendMessage`: the guard, the user
      message appended with the raw (untrimmed) input, the input cleared,
      the pending flag set and the banner cleared. `request` is the body of
      `POST /api/chat`. */
  function StartSend(s: ChatState, id: int, now: int): (r: SendStart)
    ensures r.Ignored? <==> Blank(s.input) || s.isTyping
    ensures r.Started? ==>
      && r.request == s.input
      && |r.state.messages| == |s.messages| + 1
      && r.state.messages[..|s.messages|] == s.messages
      && r.state.messages[|s.messages|] == Message(id, s.input, User, now, None, None, false)
      && r.state.input == []
      && r.state.isTyping
      && r.state.error.None?
      && r.state.isConnected == s.isConnected
      && r.state.modelStatus == s.modelStatus
    ensures r.Started? && WellFormed(s) ==> WellFormed(r.state)
  {
    TrimEmptyIffBlank(s.input);
    if !Accepts(s) then Ignored
    else
      var user := Message(id, s.input, User, now, None, None, false);
      AppendKeepsLogOk(s.messages, user);
      Started(s.(messages := s.messages + [user], input := "", isTyping := true, error := None), s.input)
  }

  /** The body of a successful `POST /api/chat`. */
  datatype ChatReply = ChatReply(response: string, analysis: Option<Analysis>, processingTime: Option<real>)

  datatype ErrorKind = ServerError | NetworkError | UnknownError

  /** The failure classifier: status 500 exactly, then the two axios codes,
      then everything else. */
  function Classify(f: HttpFailure): (k: ErrorKind)
    ensures k == ServerError <==> f.status == Some(500)
    ensures k == NetworkError <==>
      f.status != Some(500) && (f.code == Some("ECONNABORTED") || f.code == Some("NETWORK_ERROR"))
  {
    if f.status == Some(500) then ServerError
    else if f.code == Some("ECONNABORTED") || f.code == Some("NETWORK_ERROR") then NetworkError
    else UnknownError
  }

  function Suffix(k: ErrorKind): string {
    match k
    case ServerError => ServerSuffix
    case NetworkError => NetworkSuffix
    case UnknownError => GenericSuffix
  }

  /** The synthesized reply text: the apology, then the category's advice. */
  function ErrorText(k: ErrorKind): (t: string)
    ensures |Apology| <= |t| && t[..|Apology|] == Apology
    ensures k == ServerError ==> t == Apology + ServerSuffix
    ensures k == NetworkError ==> t == Apology + NetworkSuffix
    ensures k == UnknownError ==> t == Apology + GenericSuffix
  {
    Apology + Suffix(k)
  }

  /** Recovers the category from a synthesized reply text. */
  function KindOfText(t: string): Option<ErrorKind> {
    if t == ErrorText(ServerError) then Some(ServerError)
    else if t == ErrorText(NetworkError) then Some(NetworkError)
    else if t == ErrorText(UnknownError) then Some(UnknownError)
    else None
  }

  /** The reply text determines the category: the three texts are distinct
      and `KindOfText` inverts `ErrorText`. */
  lemma ErrorTextRoundTrip(k: ErrorKind, t: string)
    ensures KindOfText(ErrorText(k)) == Some(k)
    ensures KindOfText(t) == Some(k) ==> t == ErrorText(k)
  {
    assert |ErrorText(ServerError)| != |ErrorText(NetworkError)|;
    assert |ErrorText(ServerError)| != |ErrorText(UnknownError)|;
    assert |ErrorText(NetworkError)| != |ErrorText(UnknownError)|;
  }

  /** A 500 is a server error even when axios also set a network code. */
  lemma StatusWinsOverCode(code: Option<string>)
    ensures Classify(HttpFailure(Some(500), code)) == ServerError
  {
  }

  /** Only 500 is recognised: a 503 without a network code falls through to
      the generic advice. */
  lemma OtherServerStatusIsGeneric()
    ensures Classify(HttpFailure(Some(503), None)) == UnknownError
    ensures Classify(HttpFailure(Some(502), Some("ERR_BAD_RESPONSE"))) == UnknownError
  {
  }

  /** The code that runs when `POST /api/chat` settles: exactly one assistant
      message is appended (the reply, or the synthesized error), the pending
      flag drops, and a failure raises the banner. */
  function CompleteSend(s: ChatState, outcome: Reply<ChatReply>, id: int, now: int): (r: ChatState)
    ensures |r.messages| == |s.messages| + 1 && r.messages[..|s.messages|] == s.messages
    ensures r.messages[|s.messages|].sender == Assistant && r.messages[|s.messages|].id == id
    ensures !r.isTyping
    ensures r.input == s.input && r.isConnected == s.isConnected && r.modelStatus == s.modelStatus
    ensures outcome.Ok? ==>
      && r.messages[|s.messages|].text == outcome.data.response
      && r.messages[|s.messages|].analysis == outcome.data.analysis
      && r.messages[|s.messages|].processingTime == outcome.data.processingTime
      && !r.messages[|s.messages|].isError
      && r.error == s.error
    ensures outcome.Failed? ==>
      && r.messages[|s.messages|].isError
      && KindOfText(r.messages[|s.messages|].text) == Some(Classify(outcome.failure))
      && r.messages[|s.messages|].analysis.None?
      && r.messages[|s.messages|].processingTime.None?
      && r.error == Some(SendFailedBanner)
    ensures outcome.Failed? ==>
      var f := outcome.failure;
      r.messages[|s.messages|].text
        == Apology + (if f.status == Some(500) then ServerSuffix
                      else if f.code == Some("ECONNABORTED") || f.code == Some("NETWORK_ERROR") then NetworkSuffix
                      else GenericSuffix)
    ensures WellFormed(s) ==> WellFormed(r)
  {
    match outcome
    case Ok(reply) =>
      var m := Message(id, reply.response, Assistant, now, reply.analysis, reply.processingTime, false);
      AppendKeepsLogOk(s.messages, m);
      s.(messages := s.messages + [m], isTyping := false)
    case Failed(f) =>
      var m := Message(id, ErrorText(Classify(f)), Assistant, now, None, None, true);
      ErrorTextRoundTrip(Classify(f), m.text);
      AppendKeepsLogOk(s.messages, m);
      s.(messages := s.messages + [m], isTyping := false, error := Some(SendFailedBanner))
  }

  /** A whole `handleSendMessage` with nothing interleaved: ignored, or the
      log grows by exactly the user message and then one assistant message. */
  function Send(s: ChatState, outcome: Reply<ChatReply>, userId: int, replyId: int, sentAt: int, repliedAt: int): (r: ChatState)
    ensures Blank(s.input) || s.isTyping ==> r == s
    ensures !Blank(s.input) && !s.isTyping ==>
      && |r.messages| == |s.messages| + 2
      && r.messages[..|s.messages|] == s.messages
      && r.messages[|s.messages|].sender == User
      && r.messages[|s.messages|].text == s.input
      && r.messages[|s.messages| + 1].sender == Assistant
      && r.messages[|s.messages| + 1].isError == outcome.Failed?
      && r.input == []
      && !r.isTyping
      && (r.error.None? <==> outcome.Ok?)
    ensures WellFormed(s) ==> WellFormed(r)
  {
    match StartSend(s, userId, sentAt)
    case Ignored => s
    case Started(t, _) =>
      var r := CompleteSend(t, outcome, replyId, repliedAt);
      assert r.messages[..|s.messages|] == t.messages[..|s.messages|];
      r
  }

  /** A key press in the input: Enter without Shift submits, as the send
      button does. A disabled input receives no key events, so while it is
      disabled nothing happens. */
  function KeyPress(s: ChatState, key: string, shift: bool, outcome: Reply<ChatReply>,
                    userId: int, replyId: int, sentAt: int, repliedAt: int): (r: ChatState)
    ensures InputDisabled(s) || key != "Enter" || shift ==> r == s
    ensures !InputDisabled(s) && key == "Enter" && !shift ==> r == Send(s, outcome, userId, replyId, sentAt, repliedAt)
    ensures WellFormed(s) ==> WellFormed(r)
  {
    if !InputDisabled(s) && key == "Enter" && !shift then Send(s, outcome, userId, replyId, sentAt, repliedAt) else s
  }

  /** Unlike the button's handler, the Enter key can only send while
      connected: the input that receives it is disabled otherwise. */
  lemma EnterNeedsConnection(s: ChatState, outcome: Reply<ChatReply>, userId: int, replyId: int, sentAt: int, repliedAt: int)
    ensures KeyPress(s, "Enter", false, outcome, userId, replyId, sentAt, repliedAt) != s ==> s.isConnected && !s.isTyping && !Blank(s.input)
    ensures SendEnabled(s) ==>
      KeyPress(s, "Enter", false, outcome, userId, replyId, sentAt, repliedAt) == Send(s, outcome, userId, replyId, sentAt, repliedAt)
  {
  }

  /** Whenever the button is enabled the handler accepts. */
  lemma EnabledSendIsAccepted(s: ChatState, id: int, now: int)
    requires SendEnabled(s)
    ensures StartSend(s, id, now).Started?
  {
  }

  /** The converse fails: the handler would accept while disconnected, so
      connectivity is enforced only by the disabled button and input. */
  lemma HandlerIgnoresConnectivity()
    ensures exists s: ChatState :: !SendEnabled(s) && StartSend(s, 2, 0).Started?
  {
    var s := ChatState([AssistantNote(WelcomeId, WelcomeText, 0)], "hi", false, false, NoModels, None);
    assert !IsJsSpace(s.input[0]);
    assert !SendEnabled(s) && StartSend(s, 2, 0).Started?;
  }

  /* ---------------------------------------------------------------------
     Clearing
     --------------------------------------------------------------------- */

  /** `handleClearChat`: the log becomes the short welcome with id 1 and the
      banner goes; the pending flag, the input and connectivity stay. The
      `POST /api/conversation/clear` it fires is not awaited. */
  function Clear(s: ChatState, now: int): (r: ChatState)
    ensures r.messages == [AssistantNote(WelcomeId, ClearedWelcomeText, now)]
    ensures r.messages[0].id == WelcomeId && r.messages[0].sender == Assistant
    ensures r.messages[0].text == ClearedWelcomeText && !r.messages[0].isError
    ensures r.error.None?
    ensures r.isTyping == s.isTyping && r.input == s.input
    ensures r.isConnected == s.isConnected && r.modelStatus == s.modelStatus
    ensures WellFormed(r)
  {
    s.(messages := [AssistantNote(WelcomeId, ClearedWelcomeText, now)], error := None)
  }

  /** Clearing twice is clearing once, whatever came before. */
  lemma ClearIdempotent(s: ChatState, t: ChatState, now: int)
    requires s.isTyping == t.isTyping && s.input == t.input
    requires s.isConnected == t.isConnected && s.modelStatus == t.modelStatus
    ensures Clear(Clear(s, now), now) == Clear(t, now)
  {
  }

  /** Clear does not wait for a pending reply: clearing while a send is in
      flight keeps the pending flag (so a second send is still refused), and
      the reply then lands right after the welcome, without its user
      message. */
  lemma ClearDuringSend(s: ChatState, outcome: Reply<ChatReply>, userId: int, replyId: int, t0: int, t1: int, t2: int)
    requires !Blank(s.input) && !s.isTyping
    ensures var started := StartSend(s, userId, t0).state;
            var cleared := Clear(started, t1);
            && StartSend(cleared, userId, t1).Ignored?
            && var done := CompleteSend(cleared, outcome, replyId, t2);
               && |done.messages| == 2
               && done.messages[0].text == ClearedWelcomeText
               && done.messages[1].sender == Assistant
               && !done.isTyping
  {
  }
}

=== FILE: payload.dfy ===
/** The JSON shapes the frontend and the backend exchange: the NLP analysis
    attached to a chat reply, the model-readiness flags, the health report,
    and the outcome of one HTTP call. A missing key or a `null` is `None`. */
module Payload {
  import opened Wrappers

  /** `{primary, confidence}`; the confidence is a float in [0, 1]. */
  datatype Intent = Intent(primary: string, confidence: real)

  /** `{sentiment, confidence?}`; `polarity` is the `sentiment` key. */
  datatype Sentiment = Sentiment(polarity: string, confidence: Option<real>)

  /** `{text, label}`; `kind` is the spaCy label, such as PERSON, GPE or LOC. */
  datatype Entity = Entity(text: string, kind: string)

  /** `{word}` */
  datatype Keyword = Keyword(word: string)

  datatype TextStats = TextStats(wordCount: nat, characterCount: nat, sentenceCount: nat)

  /** The analysis dictionary; every key is independently optional. */
  datatype Analysis = Analysis(
    intent: Option<Intent>,
    sentiment: Option<Sentiment>,
    entities: Option<seq<Entity>>,
    keywords: Option<seq<Keyword>>,
    textStats: Option<TextStats>)
  {
    /** The dictionary has no key at all, i.e. it is `{}`. */
    predicate IsEmpty() {
      intent.None? && sentiment.None? && entities.None? && keywords.None? && textStats.None?
    }
  }

  /** The intents the classifier can report and both the bubble's emoji
      table and the backend's template table know by name. */
  const IntentNames: set<string> :=
    {"greeting", "question", "request_help", "weather", "time_date", "goodbye", "compliment", "complaint"}

  /** Which NLP back ends the server reports as loaded. */
  datatype ModelFlags = ModelFlags(spacy: bool, transformers: bool, nltk: bool)

  const NoModels := ModelFlags(false, false, false)

  /** The `/api/health` body: `{status, models_loaded?}`. */
  datatype Health = Health(status: string, modelsLoaded: Option<ModelFlags>)

  /** A rejected axios call: `error.response?.status` and `error.code`. */
  datatype HttpFailure = HttpFailure(status: Option<int>, code: Option<string>)

  /** What an awaited HTTP call produced: the response body, or a failure. */
  datatype Reply<+T> = Ok(data: T) | Failed(failure: HttpFailure)
}

=== FILE: responder.dfy ===
/** The backend's reply chooser (backend/utils/response_generator.py): a
    decision tree over the analysed intent, substrings of the message,
    keywords, sentiment and entities, plus the conversation history it keeps.

    `random.choice(xs)` is `Choose(xs, pick)` for a caller-supplied `pick`;
    every member of `xs` is reachable (`ChooseCovers`), so the model allows
    exactly the answers the source can give. `datetime.now()` is a `Clock`
    passed in. */
module Responder {
  import opened Wrappers
  import opened Text
  import opened Payload

  /* ---------------------------------------------------------------------
     Random choice and clocks
     --------------------------------------------------------------------- */

  function Choose<T>(xs: seq<T>, pick: nat): (x: T)
    requires |xs| > 0
    ensures x in xs
  {
    xs[pick % |xs|]
  }

  /** Every member of the list is some draw. */
  lemma ChooseCovers<T>(xs: seq<T>, x: T)
    requires x in xs
    ensures exists pick: nat :: Choose(xs, pick) == x
  {
    var i :| 0 <= i < |xs| && xs[i] == x;
    assert Choose(xs, i) == x;
  }

  /** `datetime.now()` rendered with '%Y-%m-%d %H:%M:%S' (`stamp`) and with
      '%A, %B %d, %Y at %I:%M %p' (`long`). */
  datatype Clock = Clock(stamp: string, long: string)

  /* ---------------------------------------------------------------------
     Reply texts
     --------------------------------------------------------------------- */

  const GreetingReplies := [
    "Hello! I'm Claude, your AI assistant. How can I help you today?",
    "Hi there! I'm Claude, nice to meet you! What would you like to know?",
    "Hey! I'm Claude, your virtual assistant. What can I do for you?",
    "Hello! I'm Claude, an AI assistant here to help. What's on your mind?"]
  const QuestionReplies := [
    "That's a great question! Let me help you with that.",
    "I'd be happy to answer that for you.",
    "Let me think about that and provide you with a helpful response.",
    "Interesting question! Here's what I can tell you:"]
  const HelpReplies := [
    "I'm here to help! I can assist with questions, analysis, explanations, and much more.",
    "Absolutely! I can help with a wide range of topics. What specific area would you like assistance with?",
    "Of course! I'm designed to help with various tasks. What do you need help with?"]
  const WeatherReplies := [
    "I don't have access to real-time weather data, but I'd recommend checking a weather app or website for current conditions.",
    "For accurate weather information, I'd suggest checking your local weather service or a weather app."]
  const GoodbyeReplies := [
    "Goodbye! It was great chatting with you. Feel free to come back anytime!",
    "Take care! I'm here whenever you need assistance.",
    "See you later! Have a wonderful day!"]
  const ComplimentReplies := [
    "Thank you so much! I really appreciate your kind words. Is there anything else I can help you with?",
    "That's very kind of you to say! I'm glad I could be helpful.",
    "Thanks! I'm here to help whenever you need it."]
  const ComplaintReplies := [
    "I apologize if I didn't meet your expectations. Could you tell me more about what went wrong so I can help better?",
    "I'm sorry about that. Let me try to help you in a different way. What specifically can I improve?"]
  const NameReplies := [
    "I'm Claude, an AI assistant created by Anthropic. I'm here to help you with questions and tasks!",
    "My name is Claude! I'm an AI assistant designed to be helpful, harmless, and honest.",
    "I'm Claude, your AI assistant. Nice to meet you! What's your name?",
    "You can call me Claude! I'm an AI created by Anthropic to assist and chat with people."]

  const WeatherQuestionReply := "I don't have access to real-time weather data, but I'd recommend checking a weather app for current conditions."
  const CapabilitiesReply := "I can help you with a wide variety of tasks including answering questions, providing explanations, analyzing text, having conversations, and much more! What would you like to explore?"
  const OpenQuestionReply := "I'd be happy to help answer your question! Could you provide a bit more detail about what you'd like to know?"
  const NoKeywordReply := "I'd like to help you with that! Could you tell me more about what you're looking for?"
  const FallbackReply := "I understand you're asking something important. Could you help me understand better by providing more details or rephrasing your question?"
  const NegativePrefix := "I understand this might be frustrating. "
  const PositiveSuffix := " I'm glad to help with this!"
  const NoHistoryText := "No conversation history available."

  function ClockReply(now: Clock): string {
    "The current date and time is " + now.stamp + "."
  }

  function TopicQuestionReply(topic: string): string {
    "That's a great question about " + topic + "! Could you provide more specific details so I can give you the most helpful answer?"
  }

  /** The two `time_date` replies for a given clock. */
  function TimeDateReplies(clock: Clock): seq<string> {
    [ClockReply(clock), "Right now it's " + clock.long + "."]
  }

  /* ---------------------------------------------------------------------
     `str.format` on the fallback templates
     --------------------------------------------------------------------- */

  /** A parsed format string: literal text and `{topic}` fields. */
  datatype Piece = Lit(text: string) | TopicField

  function Format(t: seq<Piece>, topic: string): string {
    if |t| == 0 then ""
    else (match t[0] case Lit(s) => s case TopicField => topic) + Format(t[1..], topic)
  }

  predicate HasTopicField(t: seq<Piece>) {
    exists i :: 0 <= i < |t| && t[i] == TopicField
  }

  /** A template with a `{topic}` field shows the topic; one without it
      renders the same whatever the topic. */
  lemma {:induction false} FormatUsesTopic(t: seq<Piece>, topic: string, other: string)
    ensures HasTopicField(t) ==> Contains(Format(t, topic), topic)
    ensures !HasTopicField(t) ==> Format(t, topic) == Format(t, other)
  {
    if |t| > 0 {
      FormatUsesTopic(t[1..], topic, other);
      var head := match t[0] case Lit(s) => s case TopicField => topic;
      var rest := Format(t[1..], topic);
      assert Format(t, topic) == head + rest;
      if t[0] == TopicField {
        assert (head + rest)[0..|topic|] == topic;
        assert OccursAt(head + rest, topic, 0);
        ContainsIff(head + rest, topic);
      } else if HasTopicField(t) {
        var i :| 0 <= i < |t| && t[i] == TopicField;
        assert t[1..][i - 1] == TopicField;
        ContainsIff(rest, topic);
        var j :| OccursAt(rest, topic, j);
        assert (head + rest)[|head| + j..|head| + j + |topic|] == rest[j..j + |topic|];
        assert OccursAt(head + rest, topic, |head| + j);
        ContainsIff(head + rest, topic);
      } else {
        assert forall i :: 0 <= i < |t| - 1 ==> t[1..][i] == t[i + 1];
      }
    }
  }

  const FallbackTemplates: seq<seq<Piece>> := [
    [Lit("I understand you're asking about "), TopicField, Lit(". Could you provide more details so I can give you a better answer?")],
    [Lit("That's interesting! Tell me more about what you'd like to know regarding "), TopicField, Lit(".")],
    [Lit("I'd like to help you with that. Could you rephrase your question or provide more context?")],
    [Lit("I want to make sure I understand correctly. Are you asking about "), TopicField, Lit("?")]]

  /* ---------------------------------------------------------------------
     The decision tree
     --------------------------------------------------------------------- */

  const NamePatterns := [
    "what is your name", "what's your name", "who are you",
    "what are you called", "your name", "tell me your name"]

  const WhWords := ["what", "who", "where", "when", "how", "why"]

  /** `_is_asking_name` */
  predicate IsAskingName(message: string) {
    ContainsAny(Lower(message), NamePatterns)
  }

  /** Three of the six patterns contain "your name", so three substrings
      decide the check. */
  lemma AskingNameReduces(message: string)
    ensures IsAskingName(message) <==>
      var l := Lower(message);
      Contains(l, "your name") || Contains(l, "who are you") || Contains(l, "what are you called")
  {
    var l := Lower(message);
    assert NamePatterns[4] == "your name";
    assert NamePatterns[2] == "who are you";
    assert NamePatterns[3] == "what are you called";
    assert OccursAt(NamePatterns[0], "your name", 8);
    assert OccursAt(NamePatterns[1], "your name", 7);
    assert OccursAt(NamePatterns[5], "your name", 8);
    ContainsIff(NamePatterns[0], "your name");
    ContainsIff(NamePatterns[1], "your name");
    ContainsIff(NamePatterns[5], "your name");
    if IsAskingName(message) {
      var k :| 0 <= k < |NamePatterns| && Contains(l, NamePatterns[k]);
      if k == 0 || k == 1 || k == 5 {
        ContainsTransitive(l, NamePatterns[k], "your name");
      }
    }
  }

  /** Whether a wh-question is caught by one of `_handle_question`'s four
      specific checks; a wh-question caught by none falls through to the
      keyword reply, like a message without a wh-word. */
  predicate SpecificQuestion(message: string) {
    var l := Lower(message);
    && ContainsAny(l, WhWords)
    && (|| Contains(l, "time") || Contains(l, "date") || Contains(l, "weather")
        || IsAskingName(message) || Contains(l, "help") || Contains(l, "do"))
  }

  /** `_handle_question`, whose name branch `HandleIntent` always pre-empts. */
  function HandleQuestion(message: string, keywords: seq<Keyword>, now: Clock, pick: nat): (r: string)
    ensures var l := Lower(message);
      var wh := ContainsAny(l, WhWords);
      && (wh && (Contains(l, "time") || Contains(l, "date")) ==> r == ClockReply(now))
      && (wh && !Contains(l, "time") && !Contains(l, "date") && Contains(l, "weather") ==>
            r == WeatherQuestionReply)
      && (wh && !Contains(l, "time") && !Contains(l, "date") && !Contains(l, "weather") && IsAskingName(message) ==>
            r in NameReplies)
      && ((wh && !Contains(l, "time") && !Contains(l, "date") && !Contains(l, "weather") && !IsAskingName(message)
             && (Contains(l, "help") || Contains(l, "do"))) ==> r == CapabilitiesReply)
      && (!SpecificQuestion(message) && |keywords| > 0 ==> r == TopicQuestionReply(keywords[0].word))
      && (!SpecificQuestion(message) && |keywords| == 0 ==> r == OpenQuestionReply)
  {
    var l := Lower(message);
    if ContainsAny(l, WhWords) && (Contains(l, "time") || Contains(l, "date")) then ClockReply(now)
    else if ContainsAny(l, WhWords) && Contains(l, "weather") then WeatherQuestionReply
    else if ContainsAny(l, WhWords) && IsAskingName(message) then Choose(NameReplies, pick)
    else if ContainsAny(l, WhWords) && (Contains(l, "help") || Contains(l, "do")) then CapabilitiesReply
    else if |keywords| > 0 then TopicQuestionReply(keywords[0].word)
    else OpenQuestionReply
  }

  /** `_generate_contextual_response`: a fallback template about the first
      keyword, or a fixed request for more detail. */
  function ContextualResponse(keywords: seq<Keyword>, pick: nat): (r: string)
    ensures |keywords| == 0 ==> r == NoKeywordReply
    ensures |keywords| > 0 ==> exists t :: t in FallbackTemplates && r == Format(t, keywords[0].word)
  {
    if |keywords| > 0 then Format(Choose(FallbackTemplates, pick), keywords[0].word) else NoKeywordReply
  }

  /** Every fallback template can come out for a keyword. */
  lemma ContextualResponseCovers(keywords: seq<Keyword>, t: seq<Piece>)
    requires |keywords| > 0 && t in FallbackTemplates
    ensures exists p: nat :: ContextualResponse(keywords, p) == Format(t, keywords[0].word)
  {
    ChooseCovers(FallbackTemplates, t);
    var p: nat :| Choose(FallbackTemplates, p) == t;
    assert ContextualResponse(keywords, p) == Format(t, keywords[0].word);
  }

  /** Which fallback templates carry a `{topic}` field: all but the third. */
  lemma FallbackTopicFields()
    ensures forall k :: 0 <= k < |FallbackTemplates| ==> (HasTopicField(FallbackTemplates[k]) <==> k != 2)
  {
    assert FallbackTemplates[0][1] == TopicField;
    assert FallbackTemplates[1][1] == TopicField;
    assert FallbackTemplates[3][1] == TopicField;
    var t2 := FallbackTemplates[2];
    assert |t2| == 1 && t2[0].Lit?;
  }

  /** The contextual reply names the keyword, unless the draw is the one
      template without a `{topic}` field, whose text ignores the keyword. */
  lemma ContextualResponseNamesTopic(keywords: seq<Keyword>, pick: nat)
    requires |keywords| > 0
    ensures pick % |FallbackTemplates| != 2 ==> Contains(ContextualResponse(keywords, pick), keywords[0].word)
    ensures pick % |FallbackTemplates| == 2 ==> ContextualResponse(keywords, pick) == Format(FallbackTemplates[2], "")
  {
    FallbackTopicFields();
    FormatUsesTopic(FallbackTemplates[pick % |FallbackTemplates|], keywords[0].word, "");
  }

  /** The per-intent reply lists, with the `time_date` replies rendered for
      the given clock. */
  function IntentTemplates(intent: string, clock: Clock): (r: Option<seq<string>>)
    ensures r.Some? <==> intent in IntentNames
    ensures r.Some? ==> |r.value| > 0
    ensures intent == "greeting" ==> r == Some(GreetingReplies)
    ensures intent == "question" ==> r == Some(QuestionReplies)
    ensures intent == "request_help" ==> r == Some(HelpReplies)
    ensures intent == "weather" ==> r == Some(WeatherReplies)
    ensures intent == "time_date" ==> r == Some(TimeDateReplies(clock))
    ensures intent == "goodbye" ==> r == Some(GoodbyeReplies)
    ensures intent == "compliment" ==> r == Some(ComplimentReplies)
    ensures intent == "complaint" ==> r == Some(ComplaintReplies)
  {
    if intent == "greeting" then Some(GreetingReplies)
    else if intent == "question" then Some(QuestionReplies)
    else if intent == "request_help" then Some(HelpReplies)
    else if intent == "weather" then Some(WeatherReplies)
    else if intent == "time_date" then Some(TimeDateReplies(clock))
    else if intent == "goodbye" then Some(GoodbyeReplies)
    else if intent == "compliment" then Some(ComplimentReplies)
    else if intent == "complaint" then Some(ComplaintReplies)
    else None
  }

  /** `_handle_intent` (its unused `entities` argument dropped): a name
      question first, then questions, then the known intents' lists, then
      the keyword-based fallback. */
  function HandleIntent(intent: string, message: string, keywords: seq<Keyword>, now: Clock, pick: nat): (r: string)
    ensures IsAskingName(message) ==> r in NameReplies
    ensures !IsAskingName(message) && intent == "question" ==> r == HandleQuestion(message, keywords, now, pick)
    ensures !IsAskingName(message) && intent != "question" && intent in IntentNames ==>
      r in IntentTemplates(intent, now).value
    ensures !IsAskingName(message) && intent !in IntentNames ==> r == ContextualResponse(keywords, pick)
  {
    if IsAskingName(message) then Choose(NameReplies, pick)
    else if intent == "question" then HandleQuestion(message, keywords, now, pick)
    else if intent in IntentNames then Choose(IntentTemplates(intent, now).value, pick)
    else ContextualResponse(keywords, pick)
  }

  /** Every listed reply can come out: all name replies for a name question,
      and every template of a known non-question intent otherwise. */
  lemma HandleIntentCovers(intent: string, message: string, keywords: seq<Keyword>, now: Clock, reply: string)
    ensures IsAskingName(message) && reply in NameReplies ==>
      exists pick: nat :: HandleIntent(intent, message, keywords, now, pick) == reply
    ensures !IsAskingName(message) && intent != "question" && intent in IntentNames
            && reply in IntentTemplates(intent, now).value ==>
      exists pick: nat :: HandleIntent(intent, message, keywords, now, pick) == reply
  {
    if IsAskingName(message) && reply in NameReplies {
      ChooseCovers(NameReplies, reply);
      var p: nat :| Choose(NameReplies, p) == reply;
      assert HandleIntent(intent, message, keywords, now, p) == reply;
    }
    if !IsAskingName(message) && intent != "question" && intent in IntentNames
       && reply in IntentTemplates(intent, now).value {
      var xs := IntentTemplates(intent, now).value;
      ChooseCovers(xs, reply);
      var p: nat :| Choose(xs, p) == reply;
      assert HandleIntent(intent, message, keywords, now, p) == reply;
    }
  }

  /** The random name branch inside `_handle_question` is dead code: by the
      time a question reaches it the name check has already failed, so the
      answer to a question does not depend on the draw. */
  lemma QuestionsAreDeterministic(message: string, keywords: seq<Keyword>, now: Clock, p1: nat, p2: nat)
    requires !IsAskingName(message)
    ensures HandleIntent("question", message, keywords, now, p1) == HandleIntent("question", message, keywords, now, p2)
  {
  }

  /** `_add_sentiment_context` */
  function AddSentimentContext(response: string, polarity: string): (r: string)
    ensures polarity == "negative" ==> r == NegativePrefix + response
    ensures polarity == "positive" ==> r == response + PositiveSuffix
    ensures polarity != "negative" && polarity != "positive" ==> r == response
  {
    if polarity == "negative" then NegativePrefix + response
    else if polarity == "positive" then response + PositiveSuffix
    else response
  }

  /** The first entity whose label is in `kinds`, as `[e for e in es if
      e["label"] in kinds][0]` would pick it. */
  function FirstOfKind(es: seq<Entity>, kinds: set<string>): (r: Option<Entity>)
    ensures r.None? <==> forall i :: 0 <= i < |es| ==> es[i].kind !in kinds
    ensures r.Some? ==> exists i :: 0 <= i < |es| && es[i] == r.value && r.value.kind in kinds
                                 && forall j :: 0 <= j < i ==> es[j].kind !in kinds
  {
    if |es| == 0 then None
    else if es[0].kind in kinds then Some(es[0])
    else
      var r := FirstOfKind(es[1..], kinds);
      assert forall i :: 1 <= i < |es| ==> es[i] == es[1..][i - 1];
      r
  }

  const PersonKinds := {"PERSON"}
  const PlaceKinds := {"GPE", "LOC"}

  /** `_add_entity_context`: mention the first person if any, else the first
      place if any, else leave the reply as it is. */
  function AddEntityContext(response: string, entities: seq<Entity>): (r: string)
    ensures FirstOfKind(entities, PersonKinds).Some? ==>
      r == response + " I notice you mentioned " + FirstOfKind(entities, PersonKinds).value.text + "."
    ensures FirstOfKind(entities, PersonKinds).None? && FirstOfKind(entities, PlaceKinds).Some? ==>
      r == response + " I see you're asking about " + FirstOfKind(entities, PlaceKinds).value.text + "."
    ensures (forall i :: 0 <= i < |entities| ==> entities[i].kind !in PersonKinds + PlaceKinds) ==> r == response
    ensures |response| <= |r| && r[..|response|] == response
  {
    match FirstOfKind(entities, PersonKinds)
    case Some(p) => response + " I notice you mentioned " + p.text + "."
    case None =>
      match FirstOfKind(entities, PlaceKinds)
      case Some(g) => response + " I see you're asking about " + g.text + "."
      case None => response
  }

  /* ---------------------------------------------------------------------
     The generator and its history
     --------------------------------------------------------------------- */

  /** One `conversation_history` entry. */
  datatype Entry = Entry(userMessage: string, timestamp: string, analysis: Option<Analysis>)

  /** A `ResponseGenerator`: its history, the user's name, the (never
      filled) context dictionary, and the clock its constructor read. */
  datatype Generator = Generator(
    history: seq<Entry>,
    userName: Option<string>,
    context: map<string, string>,
    createdAt: Clock)

  function Init(createdAt: Clock): (g: Generator)
    ensures g.history == [] && g.userName.None? && g.context == map[]
  {
    Generator([], None, map[], createdAt)
  }

  /** `if analysis_results:` — `None` and `{}` are falsy. */
  predicate Truthy(analysis: Option<Analysis>) {
    analysis.Some? && !analysis.value.IsEmpty()
  }

  function PrimaryIntent(a: Analysis): string {
    match a.intent case Some(i) => i.primary case None => "general"
  }

  function PolarityOf(a: Analysis): string {
    match a.sentiment case Some(s) => s.polarity case None => "neutral"
  }

  datatype Turn = Turn(generator: Generator, response: string)

  /** `generate_response`: records the message, then answers. With a truthy
      analysis the answer is the intent's reply, adjusted for sentiment and
      then for entities; otherwise it is the fixed fallback. */
  function GenerateResponse(g: Generator, message: string, analysis: Option<Analysis>,
                            isoNow: string, now: Clock, pick: nat): (t: Turn)
    ensures t.generator == g.(history := g.history + [Entry(message, isoNow, analysis)])
    ensures !Truthy(analysis) ==> t.response == FallbackReply
    ensures Truthy(analysis) ==>
      var a := analysis.value;
      var base := HandleIntent(PrimaryIntent(a), message, a.keywords.GetOr([]), now, pick);
      t.response == AddEntityContext(AddSentimentContext(base, PolarityOf(a)), a.entities.GetOr([]))
  {
    var g' := g.(history := g.history + [Entry(message, isoNow, analysis)]);
    if Truthy(analysis) then
      var a := analysis.value;
      var base := HandleIntent(PrimaryIntent(a), message, a.keywords.GetOr([]), now, pick);
      Turn(g', AddEntityContext(AddSentimentContext(base, PolarityOf(a)), a.entities.GetOr([])))
    else
      Turn(g', FallbackReply)
  }

  /** A negative message's answer opens with the sympathy line; a positive
      one's carries the glad-to-help line right after the base reply, before
      any entity mention. */
  lemma SentimentFraming(g: Generator, message: string, a: Analysis, isoNow: string, now: Clock, pick: nat)
    requires !a.IsEmpty()
    ensures var r := GenerateResponse(g, message, Some(a), isoNow, now, pick).response;
      var base := HandleIntent(PrimaryIntent(a), message, a.keywords.GetOr([]), now, pick);
      && (PolarityOf(a) == "negative" ==> |NegativePrefix| <= |r| && r[..|NegativePrefix|] == NegativePrefix)
      && (PolarityOf(a) == "positive" ==>
            |base + PositiveSuffix| <= |r| && r[..|base + PositiveSuffix|] == base + PositiveSuffix)
  {
    var base := HandleIntent(PrimaryIntent(a), message, a.keywords.GetOr([]), now, pick);
    var s := AddSentimentContext(base, PolarityOf(a));
    var r := AddEntityContext(s, a.entities.GetOr([]));
    assert r[..|s|] == s;
    if PolarityOf(a) == "negative" {
      assert r[..|NegativePrefix|] == s[..|NegativePrefix|];
    }
  }

  /** `entry.get("analysis") and entry["analysis"].get("intent")` */
  predicate HasIntent(e: Entry) {
    e.analysis.Some? && e.analysis.value.intent.Some?
  }

  /** The intents recorded in `entries`, in order, skipping entries without
      an analysed intent: a string is listed iff some entry carries it as its
      primary intent. */
  function IntentsOf(entries: seq<Entry>): (r: seq<string>)
    ensures |r| <= |entries|
    ensures forall x :: x in r <==>
      exists i :: 0 <= i < |entries| && HasIntent(entries[i]) && entries[i].analysis.value.intent.value.primary == x
  {
    if |entries| == 0 then []
    else
      var e := entries[0];
      var rest := IntentsOf(entries[1..]);
      assert forall i :: 1 <= i < |entries| ==> entries[i] == entries[1..][i - 1];
      (if HasIntent(e) then [e.analysis.value.intent.value.primary] else []) + rest
  }

  lemma {:induction false} IntentsOfAppend(a: seq<Entry>, b: seq<Entry>)
    ensures IntentsOf(a + b) == IntentsOf(a) + IntentsOf(b)
  {
    if |a| == 0 {
      assert a + b == b;
    } else {
      assert (a + b)[1..] == a[1..] + b;
      IntentsOfAppend(a[1..], b);
    }
  }

  /** `history[-5:]` */
  function LastFive(h: seq<Entry>): (r: seq<Entry>)
    ensures |r| == (if |h| < 5 then |h| else 5)
    ensures r == h[|h| - |r|..]
  {
    if |h| <= 5 then h else h[|h| - 5..]
  }

  datatype Summary = NoHistory(text: string) | Stats(messageCount: nat, recentIntents: seq<string>, conversationLength: nat)

  /** `get_conversation_summary` */
  function GetSummary(g: Generator): (s: Summary)
    ensures s.NoHistory? <==> g.history == []
    ensures s.NoHistory? ==> s.text == NoHistoryText
    ensures s.Stats? ==> s.messageCount == s.conversationLength == |g.history|
    ensures s.Stats? ==> |s.recentIntents| <= 5
    ensures s.Stats? ==> s.recentIntents == IntentsOf(LastFive(g.history))
    ensures s.Stats? ==> forall x :: x in s.recentIntents <==>
      exists i :: |g.history| - 5 <= i < |g.history| && 0 <= i && HasIntent(g.history[i])
                  && g.history[i].analysis.value.intent.value.primary == x
  {
    var h := g.history;
    var last := LastFive(h);
    assert forall i :: 0 <= i < |last| ==> last[i] == h[|h| - |last| + i];
    assert forall i :: |h| - |last| <= i < |h| ==> h[i] == last[i - (|h| - |last|)];
    if |g.history| == 0 then NoHistory(NoHistoryText)
    else Stats(|g.history|, IntentsOf(LastFive(g.history)), |g.history|)
  }

  /** After an answer the summary counts one more message, and an answer to
      an analysed intent is the newest recent intent. */
  lemma SummaryAfterResponse(g: Generator, message: string, analysis: Option<Analysis>,
                             isoNow: string, now: Clock, pick: nat)
    ensures var s := GetSummary(GenerateResponse(g, message, analysis, isoNow, now, pick).generator);
      && s.Stats?
      && s.messageCount == |g.history| + 1
      && (analysis.Some? && analysis.value.intent.Some? ==>
            |s.recentIntents| > 0 && s.recentIntents[|s.recentIntents| - 1] == analysis.value.intent.value.primary)
      && (analysis.None? || analysis.value.intent.None? ==>
            s.recentIntents == IntentsOf(LastFive(g.history)[(if |g.history| < 5 then 0 else 1)..]))
  {
    var e := Entry(message, isoNow, analysis);
    var h := g.history + [e];
    var old5 := LastFive(g.history);
    var tail := old5[(if |g.history| < 5 then 0 else 1)..];
    assert LastFive(h) == tail + [e];
    IntentsOfAppend(tail, [e]);
    assert [e][1..] == [];
  }

  /** `clear_history`: empties the history and the context. */
  function ClearHistory(g: Generator): (r: Generator)
    ensures r.history == [] && r.context == map[]
    ensures r.userName == g.userName && r.createdAt == g.createdAt
    ensures GetSummary(r) == NoHistory(NoHistoryText)
  {
    g.(history := [], context := map[])
  }

  /** `set_user_name` */
  function SetUserName(g: Generator, name: Option<string>): (r: Generator)
    ensures r.userName == name
    ensures r.history == g.history && r.context == g.context && r.createdAt == g.createdAt
  {
    g.(userName := name)
  }

  /** `get_personalized_greeting`: greets by name when one is set and
      non-empty. */
  function PersonalizedGreeting(g: Generator): (r: string)
    ensures g.userName.Some? && g.userName.value != "" ==>
      r == "Hello " + g.userName.value + "! How can I help you today?"
    ensures g.userName.None? || g.userName.value == "" ==> r == "Hello! How can I assist you today?"
  {
    match g.userName
    case Some(n) => if n != "" then "Hello " + n + "! How can I help you today?" else "Hello! How can I assist you today?"
    case None => "Hello! How can I assist you today?"
  }

  /** After `set_user_name` with a non-empty name, the greeting names the
      user. */
  lemma GreetingUsesName(g: Generator, name: string)
    requires name != ""
    ensures Contains(PersonalizedGreeting(SetUserName(g, Some(name))), name)
  {
    var r := PersonalizedGreeting(SetUserName(g, Some(name)));
    assert r[6..6 + |name|] == name;
    assert OccursAt(r, name, 6);
    ContainsIff(r, name);
  }

  /* ---------------------------------------------------------------------
     The stale clock in the `time_date` replies
     --------------------------------------------------------------------- */

  /** `self.intent_responses["time_date"]` as the constructor builds it: the
      f-strings are evaluated once, with the constructor's clock. */
  function TimeDateRepliesAsWritten(g: Generator): (r: seq<string>)
    ensures |r| == 2
    ensures Contains(r[0], g.createdAt.stamp) && Contains(r[1], g.createdAt.long)
  {
    var r := TimeDateReplies(g.createdAt);
    assert r[0][29..29 + |g.createdAt.stamp|] == g.createdAt.stamp;
    assert OccursAt(r[0], g.createdAt.stamp, 29);
    ContainsIff(r[0], g.createdAt.stamp);
    assert r[1][15..15 + |g.createdAt.long|] == g.createdAt.long;
    assert OccursAt(r[1], g.createdAt.long, 15);
    ContainsIff(r[1], g.createdAt.long);
    r
  }

  /** `_handle_intent` as written: the same decision tree, but the intent
      lists are the constructor's, so `time_date` draws from the replies
      rendered at construction. The question path still reads the clock of
      the call. */
  function HandleIntentAsWritten(g: Generator, intent: string, message: string, keywords: seq<Keyword>,
                                 now: Clock, pick: nat): (r: string)
    ensures intent != "time_date" ==> r == HandleIntent(intent, message, keywords, now, pick)
    ensures intent == "time_date" && IsAskingName(message) ==> r in NameReplies
    ensures intent == "time_date" && !IsAskingName(message) ==> r in TimeDateRepliesAsWritten(g)
  {
    if IsAskingName(message) then Choose(NameReplies, pick)
    else if intent == "question" then HandleQuestion(message, keywords, now, pick)
    else if intent in IntentNames then Choose(IntentTemplates(intent, g.createdAt).value, pick)
    else ContextualResponse(keywords, pick)
  }

  /** `generate_response` as written, with the constructor's `time_date`
      replies: it records the same history entry, and only a `time_date`
      answer can differ from the corrected pipeline. */
  function GenerateResponseAsWritten(g: Generator, message: string, analysis: Option<Analysis>,
                                     isoNow: string, now: Clock, pick: nat): (t: Turn)
    ensures t.generator == GenerateResponse(g, message, analysis, isoNow, now, pick).generator
    ensures !Truthy(analysis) || PrimaryIntent(analysis.value) != "time_date" ==>
      t.response == GenerateResponse(g, message, analysis, isoNow, now, pick).response
    ensures g.createdAt == now ==> t == GenerateResponse(g, message, analysis, isoNow, now, pick)
  {
    var g' := g.(history := g.history + [Entry(message, isoNow, analysis)]);
    if Truthy(analysis) then
      var a := analysis.value;
      var base := HandleIntentAsWritten(g, PrimaryIntent(a), message, a.keywords.GetOr([]), now, pick);
      Turn(g', AddEntityContext(AddSentimentContext(base, PolarityOf(a)), a.entities.GetOr([])))
    else
      Turn(g', FallbackReply)
  }

  /** With the constructor's lists, a neutral `time_date` answer without
      entities is one of the replies rendered at construction. */
  lemma AsWrittenTimeDateAnswer(g: Generator, message: string, a: Analysis, isoNow: string, now: Clock, pick: nat)
    requires !IsAskingName(message) && !a.IsEmpty()
    requires PrimaryIntent(a) == "time_date" && PolarityOf(a) == "neutral" && a.entities.None?
    ensures GenerateResponseAsWritten(g, message, Some(a), isoNow, now, pick).response
            == Choose(TimeDateRepliesAsWritten(g), pick)
  {
  }

  /** A generator built at 09:00 and asked for the time at 17:30 answers
      09:00, whatever the draw: a neutral `time_date` message without
      entities gets a reply that shows neither rendering of 17:30. */
  lemma TimeDateReplyIsStale(pick: nat)
    ensures var built := Clock("2024-01-01 09:00:00", "Monday, January 01, 2024 at 09:00 AM");
            var asked := Clock("2024-01-01 17:30:00", "Monday, January 01, 2024 at 05:30 PM");
            var a := Analysis(Some(Intent("time_date", 0.9)), Some(Sentiment("neutral", None)), None, None, None);
            var g := Init(built);
            && Choose(TimeDateRepliesAsWritten(g), pick) !in TimeDateReplies(asked)
            && GenerateResponseAsWritten(g, "", Some(a), "2024-01-01T17:30:00", asked, pick).response
               !in TimeDateReplies(asked)
  {
    var built := Clock("2024-01-01 09:00:00", "Monday, January 01, 2024 at 09:00 AM");
    var asked := Clock("2024-01-01 17:30:00", "Monday, January 01, 2024 at 05:30 PM");
    var a := Analysis(Some(Intent("time_date", 0.9)), Some(Sentiment("neutral", None)), None, None, None);
    assert !IsAskingName("") by {
      assert Lower("") == "";
      assert forall k :: 0 <= k < |NamePatterns| ==> |NamePatterns[k]| > 0;
    }
    AsWrittenTimeDateAnswer(Init(built), "", a, "2024-01-01T17:30:00", asked, pick);
    var xs := TimeDateReplies(built);
    var ys := TimeDateReplies(asked);
    assert xs[0] != ys[0] by { assert xs[0][41] != ys[0][41]; }
    assert xs[0] != ys[1] by { assert |xs[0]| != |ys[1]|; }
    assert xs[1] != ys[0] by { assert |xs[1]| != |ys[0]|; }
    assert xs[1] != ys[1] by { assert xs[1][44] != ys[1][44]; }
  }

  /** The replies `HandleIntent` draws from show the clock of the call. */
  lemma TimeDateReplyShowsNow(message: string, keywords: seq<Keyword>, now: Clock, pick: nat)
    requires !IsAskingName(message)
    ensures var r := HandleIntent("time_date", message, keywords, now, pick);
            Contains(r, now.stamp) || Contains(r, now.long)
  {
    var r := HandleIntent("time_date", message, keywords, now, pick);
    var xs := TimeDateReplies(now);
    assert r == xs[0] || r == xs[1];
    if r == xs[0] {
      assert r[29..29 + |now.stamp|] == now.stamp;
      assert OccursAt(r, now.stamp, 29);
      ContainsIff(r, now.stamp);
    } else {
      assert r[15..15 + |now.long|] == now.long;
      assert OccursAt(r, now.long, 15);
      ContainsIff(r, now.long);
    }
  }
}

=== FILE: shell.dfy ===
/** The application shell (frontend/src/App.js): the periodic health check
    that decides whether the chat or the connection-error panel is shown, the
    two header toggles, and the model footer. */
module Shell {
  import opened Wrappers
  import opened Payload

  datatype AppState = AppState(
    isConnected: bool,
    darkMode: bool,
    isMinimized: bool,
    isLoading: bool,
    backendHealth: Option<Health>)

  /** The shell shows the chat exactly when it has the health report of a
      successful check, and is connected only then. */
  predicate Consistent(s: AppState) {
    s.isConnected <==> s.backendHealth.Some?
  }

  /** The state the shell mounts with: loading, not connected, no report. */
  function Init(): (s: AppState)
    ensures s.isLoading && !s.isConnected && s.backendHealth.None?
    ensures s.darkMode && !s.isMinimized
    ensures Consistent(s)
  {
    AppState(false, true, false, true, None)
  }

  /** `checkBackendHealth` once `GET /api/health` (5 s timeout) has settled:
      a success stores the report and connects, a failure drops both, and
      either way loading is over. */
  function CheckBackendHealth(s: AppState, health: Reply<Health>): (r: AppState)
    ensures health.Ok? ==> r.backendHealth == Some(health.data) && r.isConnected
    ensures health.Failed? ==> r.backendHealth.None? && !r.isConnected
    ensures !r.isLoading
    ensures r.darkMode == s.darkMode && r.isMinimized == s.isMinimized
    ensures Consistent(r)
  {
    match health
    case Ok(report) => s.(backendHealth := Some(report), isConnected := true, isLoading := false)
    case Failed(_) => s.(isConnected := false, backendHealth := None, isLoading := false)
  }

  /** The theme button; the `localStorage` write is not modelled. */
  function ToggleDarkMode(s: AppState): (r: AppState)
    ensures r.darkMode != s.darkMode
    ensures r == s.(darkMode := r.darkMode)
  {
    s.(darkMode := !s.darkMode)
  }

  /** The minimize button and the restore button. */
  function ToggleMinimize(s: AppState): (r: AppState)
    ensures r.isMinimized != s.isMinimized
    ensures r == s.(isMinimized := r.isMinimized)
  {
    s.(isMinimized := !s.isMinimized)
  }

  /** Each toggle undoes itself, and the two toggles are independent. */
  lemma TogglesAreInvolutions(s: AppState)
    ensures ToggleDarkMode(ToggleDarkMode(s)) == s
    ensures ToggleMinimize(ToggleMinimize(s)) == s
    ensures ToggleDarkMode(ToggleMinimize(s)) == ToggleMinimize(ToggleDarkMode(s))
  {
  }

  /** Every event the shell handles. */
  datatype Event = HealthSettled(health: Reply<Health>) | DarkModeClicked | MinimizeClicked

  function Step(s: AppState, e: Event): (r: AppState)
    ensures Consistent(s) ==> Consistent(r)
    ensures !s.isLoading ==> !r.isLoading
  {
    match e
    case HealthSettled(h) => CheckBackendHealth(s, h)
    case DarkModeClicked => ToggleDarkMode(s)
    case MinimizeClicked => ToggleMinimize(s)
  }

  /** Runs a sequence of events from a state. */
  function Run(s: AppState, es: seq<Event>): AppState
    decreases |es|
  {
    if |es| == 0 then s else Run(Step(s, es[0]), es[1..])
  }

  /** Along any run from mount, the shell stays consistent, and once the
      first health check has settled it never shows the loading screen
      again. */
  lemma {:induction false} RunKeepsInvariants(s: AppState, es: seq<Event>)
    requires Consistent(s)
    ensures Consistent(Run(s, es))
    ensures !s.isLoading ==> !Run(s, es).isLoading
    ensures (exists i :: 0 <= i < |es| && es[i].HealthSettled?) ==> !Run(s, es).isLoading
    decreases |es|
  {
    if |es| > 0 {
      RunKeepsInvariants(Step(s, es[0]), es[1..]);
      if exists i :: 0 <= i < |es| && es[i].HealthSettled? {
        var i :| 0 <= i < |es| && es[i].HealthSettled?;
        if i > 0 {
          assert es[1..][i - 1].HealthSettled?;
        }
      }
    }
  }

  /** What fills the window. */
  datatype Screen = LoadingScreen | MinimizedButton | ChatPanel | ErrorPanel

  function ScreenOf(s: AppState): (v: Screen)
    ensures v == LoadingScreen <==> s.isLoading
    ensures v == MinimizedButton <==> !s.isLoading && s.isMinimized
    ensures v == ChatPanel <==> !s.isLoading && !s.isMinimized && s.isConnected
    ensures v == ErrorPanel <==> !s.isLoading && !s.isMinimized && !s.isConnected
  {
    if s.isLoading then LoadingScreen
    else if s.isMinimized then MinimizedButton
    else if s.isConnected then ChatPanel
    else ErrorPanel
  }

  /** A model indicator's class. */
  datatype Indicator = Loaded | NotLoaded

  datatype ModelFooter = ModelFooter(spacy: Indicator, transformers: Indicator, nltk: Indicator)

  function IndicatorOf(loaded: bool): (i: Indicator)
    ensures i == Loaded <==> loaded
  {
    if loaded then Loaded else NotLoaded
  }

  /** The model strip in the footer of the expanded window: on screen only
      when the window is shown (not loading, not minimized) and a health
      report is held, and each indicator is `loaded` iff
      `models_loaded.<name>` is set (all `error` when the report has no
      `models_loaded`). */
  function FooterOf(s: AppState): (f: Option<ModelFooter>)
    ensures f.Some? <==> !s.isLoading && !s.isMinimized && s.backendHealth.Some?
    ensures f.Some? <==> ScreenOf(s) in {ChatPanel, ErrorPanel} && s.backendHealth.Some?
    ensures f.Some? ==>
      var flags := s.backendHealth.value.modelsLoaded.GetOr(NoModels);
      && (f.value.spacy == Loaded <==> flags.spacy)
      && (f.value.transformers == Loaded <==> flags.transformers)
      && (f.value.nltk == Loaded <==> flags.nltk)
  {
    if s.isLoading || s.isMinimized then None
    else match s.backendHealth
    case None => None
    case Some(h) =>
      var flags := h.modelsLoaded.GetOr(NoModels);
      Some(ModelFooter(IndicatorOf(flags.spacy), IndicatorOf(flags.transformers), IndicatorOf(flags.nltk)))
  }

  /** In a consistent state, whenever the chat is on screen the model strip
      is too, and a failed check hides both. */
  lemma ChatShownWithFooter(s: AppState, e: Reply<Health>)
    requires Consistent(s)
    ensures ScreenOf(s) == ChatPanel ==> FooterOf(s).Some?
    ensures e.Failed? ==> FooterOf(CheckBackendHealth(s, e)).None?
    ensures e.Failed? ==> ScreenOf(CheckBackendHealth(s, e)) in {MinimizedButton, ErrorPanel}
  {
  }
}

=== FILE: text.dfy ===
/** String operations the source relies on from its runtimes: JavaScript's
    `String.prototype.trim` and `length`, Python's `in` on strings and
    `str.lower`, and the decimal rendering of integers in template literals
    and f-strings. */
module Text {

  /* ---------------------------------------------------------------------
     JavaScript trim
     --------------------------------------------------------------------- */

  /** The code points ECMAScript's `trim` removes: WhiteSpace (tab, vertical
      tab, form feed, byte order mark and category Zs) and LineTerminator. */
  predicate IsJsSpace(c: char) {
    || c == '\t' || c == '\n' || c == '\U{000B}' || c == '\U{000C}' || c == '\r'
    || c == ' ' || c == '\U{00A0}' || c == '\U{1680}'
    || ('\U{2000}' <= c <= '\U{200A}')
    || c == '\U{2028}' || c == '\U{2029}' || c == '\U{202F}' || c == '\U{205F}'
    || c == '\U{3000}' || c == '\U{FEFF}'
  }

  /** Every character of `s` is trimmable. */
  predicate Blank(s: string) {
    forall i :: 0 <= i < |s| ==> IsJsSpace(s[i])
  }

  /** Drops leading whitespace: the result is a suffix of `s`, what was dropped
      is blank, and the result does not start with whitespace. */
  function TrimStart(s: string): (r: string)
    ensures |r| <= |s| && r == s[|s| - |r|..]
    ensures Blank(s[..|s| - |r|])
    ensures r == [] || !IsJsSpace(r[0])
  {
    if |s| > 0 && IsJsSpace(s[0]) then
      var r := TrimStart(s[1..]);
      assert s[..|s| - |r|] == [s[0]] + s[1..][..|s| - 1 - |r|];
      r
    else
      s
  }

  /** Drops trailing whitespace: the result is a prefix of `s`, what was
      dropped is blank, and the result does not end with whitespace. */
  function TrimEnd(s: string): (r: string)
    ensures |r| <= |s| && r == s[..|r|]
    ensures Blank(s[|r|..])
    ensures r == [] || !IsJsSpace(r[|r| - 1])
  {
    if |s| > 0 && IsJsSpace(s[|s| - 1]) then
      var r := TrimEnd(s[..|s| - 1]);
      assert s[|r|..] == s[..|s| - 1][|r|..] + [s[|s| - 1]];
      r
    else
      s
  }

  /** `s.trim()`: a slice of `s` that neither starts nor ends with
      whitespace, and empty exactly when `s` is blank. */
  function Trim(s: string): (r: string)
    ensures exists i :: OccursAt(s, r, i) && Blank(s[..i]) && Blank(s[i + |r|..])
    ensures r == [] || (!IsJsSpace(r[0]) && !IsJsSpace(r[|r| - 1]))
  {
    var t := TrimStart(s);
    var r := TrimEnd(t);
    assert OccursAt(s, r, |s| - |t|) by {
      assert r == s[|s| - |t|..|s| - |t| + |r|];
    }
    assert s[|s| - |t| + |r|..] == t[|r|..];
    r
  }

  /** `s.trim()` is empty exactly when every character of `s` is whitespace;
      this is what the `!inputMessage.trim()` guards test. */
  lemma {:induction false} TrimEmptyIffBlank(s: string)
    ensures Trim(s) == [] <==> Blank(s)
  {
    var t := TrimStart(s);
    var k := |s| - |t|;
    if TrimEnd(t) == [] {
      // What the back trim dropped is all of `t`, which cannot start with
      // whitespace, so the front trim dropped everything.
      assert t[0..] == t;
      assert t == [];
      assert s[..k] == s;
    } else {
      assert t[0] == s[k];
    }
  }

  /* ---------------------------------------------------------------------
     Substrings (Python's `needle in haystack`)
     --------------------------------------------------------------------- */

  /** `p` occurs in `s` starting at index `i`. */
  ghost predicate OccursAt(s: string, p: string, i: int) {
    0 <= i && i + |p| <= |s| && s[i..i + |p|] == p
  }

  /** `p in s`, scanning `s` from the left. */
  predicate Contains(s: string, p: string)
    decreases |s|
  {
    |p| <= |s| && (s[..|p|] == p || (|s| > 0 && Contains(s[1..], p)))
  }

  /** The scanning definition agrees with the positional one. */
  lemma {:induction false} ContainsIff(s: string, p: string)
    ensures Contains(s, p) <==> exists i :: OccursAt(s, p, i)
    decreases |s|
  {
    if |p| > |s| {
    } else if s[..|p|] == p {
      assert OccursAt(s, p, 0);
    } else {
      assert |s| > 0;
      ContainsIff(s[1..], p);
      if Contains(s[1..], p) {
        var i :| OccursAt(s[1..], p, i);
        assert s[1..][i..i + |p|] == s[i + 1..i + 1 + |p|];
        assert OccursAt(s, p, i + 1);
      }
      if exists i :: OccursAt(s, p, i) {
        var i :| OccursAt(s, p, i);
        assert s[0..0 + |p|] == s[..|p|];
        assert i != 0;
        assert s[1..][i - 1..i - 1 + |p|] == s[i..i + |p|];
        assert OccursAt(s[1..], p, i - 1);
      }
    }
  }

  /** Substring containment is transitive. */
  lemma ContainsTransitive(s: string, p: string, q: string)
    requires Contains(s, p) && Contains(p, q)
    ensures Contains(s, q)
  {
    ContainsIff(s, p);
    ContainsIff(p, q);
    var i :| OccursAt(s, p, i);
    var j :| OccursAt(p, q, j);
    assert forall k :: 0 <= k < |q| ==> q[k] == p[j + k] == s[i + j + k];
    assert s[i + j..i + j + |q|] == q;
    assert OccursAt(s, q, i + j);
    ContainsIff(s, q);
  }

  /** Python's `any(p in s for p in ps)`. */
  predicate ContainsAny(s: string, ps: seq<string>) {
    exists k :: 0 <= k < |ps| && Contains(s, ps[k])
  }

  /* ---------------------------------------------------------------------
     Lower-casing (Python's `str.lower`, ASCII letters)
     --------------------------------------------------------------------- */

  function LowerChar(c: char): char {
    if 'A' <= c <= 'Z' then (c as int + 32) as char else c
  }

  /** `s.lower()` on the ASCII letters; every other character is kept. */
  function Lower(s: string): (r: string)
    ensures |r| == |s|
    ensures forall i :: 0 <= i < |s| ==> r[i] == LowerChar(s[i])
  {
    seq(|s|, i requires 0 <= i < |s| => LowerChar(s[i]))
  }

  /* ---------------------------------------------------------------------
     Decimal rendering of naturals (`${n}` and f"{n}")
     --------------------------------------------------------------------- */

  predicate IsDigit(c: char) {
    '0' <= c <= '9'
  }

  predicate AllDigits(s: string) {
    forall i :: 0 <= i < |s| ==> IsDigit(s[i])
  }

  function DigitChar(d: nat): (c: char)
    requires d < 10
    ensures IsDigit(c) && c as int - '0' as int == d
  {
    ('0' as int + d) as char
  }

  function DigitValue(c: char): (d: nat)
    requires IsDigit(c)
    ensures d < 10
  {
    c as int - '0' as int
  }

  /** The shortest decimal numeral of `n`: at least one digit and no
      leading zero unless `n` is zero. */
  function NatToString(n: nat): (r: string)
    ensures |r| >= 1 && AllDigits(r)
    ensures r[0] == '0' <==> n == 0
    ensures r[0] == '0' ==> |r| == 1
    decreases n
  {
    if n < 10 then [DigitChar(n)] else NatToString(n / 10) + [DigitChar(n % 10)]
  }

  /** Reads a string of digits back as a natural. */
  function ParseNat(s: string): nat
    requires AllDigits(s)
  {
    if |s| == 0 then 0 else ParseNat(s[..|s| - 1]) * 10 + DigitValue(s[|s| - 1])
  }

  /** Rendering loses nothing: parsing the numeral gives the number back. */
  lemma {:induction false} ParseNatToString(n: nat)
    ensures ParseNat(NatToString(n)) == n
    decreases n
  {
    var r := NatToString(n);
    if n >= 10 {
      ParseNatToString(n / 10);
      assert r[..|r| - 1] == NatToString(n / 10);
    }
  }

  /** Distinct numbers render as distinct numerals. */
  lemma NatToStringInjective(m: nat, n: nat)
    requires NatToString(m) == NatToString(n)
    ensures m == n
  {
    ParseNatToString(m);
    ParseNatToString(n);
  }

  /* ---------------------------------------------------------------------
     JavaScript string length (UTF-16 code units)
     --------------------------------------------------------------------- */

  /** Code points outside the Basic Multilingual Plane take a surrogate pair. */
  function Utf16Units(c: char): nat {
    if c as int > 0xFFFF then 2 else 1
  }

  /** `s.length` in JavaScript: UTF-16 code units, between one and two per
      character, and exactly one per character when `s` has no astral code
      point. */
  function Utf16Length(s: string): (n: nat)
    ensures |s| <= n <= 2 * |s|
    ensures n == |s| <==> forall i :: 0 <= i < |s| ==> s[i] as int <= 0xFFFF
  {
    if |s| == 0 then 0
    else
      var n := Utf16Units(s[0]) + Utf16Length(s[1..]);
      assert forall i :: 1 <= i < |s| ==> s[i] == s[1..][i - 1];
      n
  }

  /** Length is additive over concatenation. */
  lemma {:induction false} Utf16LengthAppend(a: string, b: string)
    ensures Utf16Length(a + b) == Utf16Length(a) + Utf16Length(b)
  {
    if |a| > 0 {
      assert (a + b)[1..] == a[1..] + b;
      Utf16LengthAppend(a[1..], b);
    } else {
      assert a + b == b;
    }
  }
}

=== FILE: wrappers.dfy ===
/** The optional-value datatype used wherever the source has `null`,
    `undefined` or a missing dictionary key. */
module Wrappers {

  datatype Option<+T> = None | Some(value: T) {

    /** Returns the value in Some, or the default when None. */
    function GetOr(default: T): T {
      match this
      case Some(v) => v
      case None => default
    }
  }
}
